=== FILE: README.md ===
# go-vite sequential cores in Dafny

This project models four sequential cores of go-vite and proves properties of
them:

- **Discovery packet envelope** (`Protocols`). It covers how a discovery message
  is serialized and wrapped in `version ‖ code ‖ checksum ‖ signature ‖ payload`,
  and how `unPacket` checks, in order, the version, the checksum, the message
  code and payload, and the signature. It also covers how `Ping` and `FindNode`
  are answered.
- **Peer finder** (`Finder`). This is the admission bookkeeping of the network
  layer. It models the dial de-duplication set, the `maxPeers` ceiling, the table
  of targets indexed by owner address, the super block producer (SBP) set and
  SBP status, observer subscriptions, and the `term` channel. It also models the
  96-byte node extension that binds a node to its owner address.
- **Log and event fan-out** (`EventSystem`). It covers topic and height filtering
  of VM logs, and how each account or snapshot chain event list is turned into
  the list each RPC subscription receives. Its install/uninstall index is also
  modelled.
- **Block store** (`BlockStore`). It covers the string key scheme of the
  interval prototype's LevelDB store, the eight-byte big-endian height index,
  put/get/delete of blocks, heads and source-hash links, and genesis
  initialisation.

Shared modules:

- `Wrappers`: `Option` and `Result`.
- `Bytes`: bytes, and Go's `copy` into a zeroed fixed array.
- `Seqs`: an order-preserving filter.
- `Decimal`: `strconv.FormatUint` in base 10.
- `BigEndian`: `encoding/binary`'s 64-bit big-endian codec.
- `Crypto`: signature, hash and address functions, with the facts assumed of them.
- `Grouping`: Go's "append to `m[k]`" grouping idiom.

Foreign code becomes a datatype of function-valued fields. The facts assumed of
it are stated as a predicate and required where a proof needs them:

- Signatures, hashes and addresses: `Crypto.Suite` and `Crypto.Sound`.
- Protobuf: `Protocols.Proto` and `Protocols.ProtoSound`.
- The node table: `Protocols.Closest` and `Protocols.TableSound`.
- The gencode serialisers: `BlockStore.Serde` and `BlockStore.SerdeSound`.

Goroutines are modelled this way:

- Each goroutine-driven entry point becomes one pure step on a state record.
- The nodes a step would hand to `go f.doDial` are returned in `started`.
- A channel send is modelled as the list delivered to that subscription.

Go panics are explicit outcomes:

- `Protocols.Outcome.Panic` and `Protocols.DecodeOutcome.DecodePanic`.
- `BlockStore.Got.Crash`.
- `None` from `Finder.Stop`.

The account hash key `"ah_" + address + "_" + hash` is unambiguous only when
block hashes contain no `_`. `BlockStore.AccountHashKeyInjective` proves it
under that condition, and `BlockStore.AccountHashKeyAmbiguous` shows a
collision without it. Hashes are hexadecimal, so this is recorded as a
condition, not as a defect.

## Model

| member | source | states |
|---|---|---|
| Protocols.KindOfCode | p2p/protocols.go:15-20 | codes 1 to 4, and only those, name a message kind, and each kind's code is the one it came from |
| Protocols.CodeTable | p2p/protocols.go:292-304 | the dispatch of `decode` is a bijection between codes 1 to 4 and Ping, Pong, FindNode, Neighbors |
| Protocols.FromPb | p2p/protocols.go:59-67 | `Deserialize` copies each protobuf byte field into a zeroed 32-byte array and keeps the kind |
| Protocols.FromPbToPb | p2p/protocols.go:109-118 | for a message whose arrays have their Go sizes, `Deserialize` after `Serialize` gives the message back |
| Protocols.ZeroMessage | p2p/protocols.go:295-301 | `new(T)` of each kind is well-sized with an all-zero ID |
| Protocols.Compose | p2p/protocols.go:243-255 | the packet is 98 + payload bytes long: version 1, the code, the checksum at [2,34), the signature at [34,98), then the payload; the returned hash is the embedded checksum and equals the 32-byte digest of signature plus payload |
| Protocols.Serialize | p2p/protocols.go:52-57 | a message's serialization unmarshals, as its own kind, to the protobuf record of that message |
| Protocols.Pack | p2p/protocols.go:69-77 | a packed message is composed under its kind's code around its serialization: version, code, the checksum at [2,34) equal to the returned hash, the signature of the serialization, then the serialization itself, with the checksum the 32-byte digest of signature and payload |
| Protocols.DecodeAsWritten | p2p/protocols.go:292-309 | as written, `decode` panics exactly on an unknown code, and otherwise returns a message of the code's kind even when unmarshalling failed |
| Protocols.Decode | p2p/protocols.go:292-309 | the intended `decode`: unknown code exactly when it reports `UnknownCode`; success exactly when the code is known and the payload unmarshals; the message has the code's kind |
| Protocols.DecodeAgrees | p2p/protocols.go:292-309 | wherever the intended `decode` succeeds, the written one returns the same message |
| Protocols.DecodeSerialize | p2p/protocols.go:52-67 | decoding the serialization of a well-sized message under its own code gives the message back |
| Protocols.UnPacketAsWritten | p2p/protocols.go:257-290 | a non-empty packet whose first byte is not 1 is rejected with the version error; a version-1 packet shorter than 98 bytes always panics; with a sound hash every version-1 packet of 98 bytes or more is rejected with the wrong-hash error, since the 23-byte re-hash never equals the 32-byte checksum; the written path panics only on a short packet or an unknown code |
| Protocols.UnPacket | p2p/protocols.go:257-290 | each check in the source's order has its outcome: an empty or short packet is `ShortPacket` (not a panic), a foreign version is `UnmatchedVersion`, a checksum that differs from the 32-byte digest of signature and payload is `WrongHash`, a decode error after a good checksum is returned as is, a bad signature is `InvalidSig` (exactly then), and otherwise the decoded message is returned with the hash from bytes [2,34) |
| Protocols.RoundTrip | p2p/protocols.go:243-290 | a well-sized message packed with the key its ID names is received intact, with the hash `Pack` returned |
| Protocols.ChecksumTamperDetected | p2p/protocols.go:270-274 | replacing the checksum bytes of a composed packet by any other 32 bytes yields `errWrongHash` |
| Protocols.AsWrittenAcceptsNothing | p2p/protocols.go:270-274 | as written, no packet at all is accepted, because a 23-byte digest never equals a 32-byte slice |
| Protocols.AsWrittenRejectsComposed | p2p/protocols.go:271-273 | as written, every packet `composePacket` produces is rejected with `errWrongHash` |
| Protocols.ShortPacketPanics | p2p/protocols.go:258-268 | the one-byte packet `[1]` makes the written path panic and the intended one report a short packet |
| Protocols.UnknownCodePanics | p2p/protocols.go:302-306 | code 5 makes the written `decode` call `Deserialize` on a nil message; the intended one reports the code |
| Protocols.UnmarshalErrorIgnored | p2p/protocols.go:306-308 | a payload protobuf rejects is, as written, returned as a zero-valued Ping with no error; the intended `decode` reports it |
| Protocols.Port16 | p2p/protocols.go:86 | `uint16(origin.Port)` wraps the port modulo 65536 and keeps ports already in range |
| Protocols.Handle | p2p/protocols.go:79-240 | a Ping is answered with a Pong carrying this node's ID and the inbound packet hash, and the sender is inserted with its ID, the origin IP and the origin port wrapped to 16 bits; a FindNode is answered with the nodes closest to its target, only when there are any; Pong and Neighbors go to the correlator |
| Protocols.NeighborsReply | p2p/protocols.go:175-181 | a Neighbors reply is sent exactly when the lookup returned at least one node, and it carries those nodes |
| Protocols.HandleAsWritten | p2p/protocols.go:173-184 | as written, FindNode looks up the nodes closest to the sender's ID; every other message is handled as intended |
| Protocols.FindNodeLooksUpSender | p2p/protocols.go:174 | for a sender with the all-zero ID asking for a target the table knows, the written handler sends nothing and the intended one sends the node |
| Protocols.PingPongCorrelation | p2p/protocols.go:79-85 | a Ping packed by one node, received and handled by another, is answered with a Pong echoing the hash the pinger holds |
| Finder.SetNodeExt | net/finder.go:292-298 | the extension is 96 bytes: the signer's public key, then its signature of the node ID; ID and endpoint are unchanged |
| Finder.ParseNodeExt | net/finder.go:300-313 | not ok below 96 bytes; otherwise ok exactly when the signature at byte 32 verifies over the ID under the key in the first 32 bytes, and the address is that key's address |
| Finder.ExtRoundTrip | net/finder.go:292-313 | `setNodeExt` then `parseNodeExt` recovers the address of the signing key |
| Finder.Dial | net/finder.go:224-230 | an ID already dialing is ignored; otherwise exactly that ID is added and one attempt starts; nothing else changes |
| Finder.DialAll | net/finder.go:268-270 | dialing a list adds exactly its IDs, starts one attempt per ID not already dialing, and never two for the same ID |
| Finder.DialTwiceStartsOnce | net/finder.go:225-227 | dialing a node twice before its attempt completes starts one attempt |
| Finder.DoDialDone | net/finder.go:232-238 | when the attempt returns, its ID leaves `dialing` whatever the outcome, and nothing else changes |
| Finder.DialThenDone | net/finder.go:224-238 | an attempt that `dial` starts and `doDial` completes leaves the finder exactly as it was |
| Finder.TotalCountsAttempts | net/finder.go:253-258 | `total` counts attempts in flight: a new dial raises it by one, a repeated dial leaves it, and the completion of an attempt in flight lowers it by one |
| Finder.ReceiveNode | net/finder.go:240-251 | the target of the owner address is set only when the extension parses; below the ceiling the node's ID joins `dialing` whatever the parse gave, and an attempt starts exactly when the ID was not already dialing; at or above it nothing is dialed; started IDs are new and distinct; a step never lifts the total above the ceiling |
| Finder.ScanOne | net/finder.go:204-216 | the address is stamped; a connected target is marked superior and not dialed; an unconnected one is dialed only when this node is an SBP; an attempt starts only for an ID not already dialing |
| Finder.ScanProducers | net/finder.go:204-217 | every event address is stamped with `now` and no other stamp changes; only `sbps` and `dialing` change, and `dialing` grows by exactly the started IDs, which are new and distinct; a non-SBP starts no attempt |
| Finder.ScanStartsOnlyTargets | net/finder.go:204-216 | every attempt the loop starts is for the unconnected target of some event address |
| Finder.ScanMarksOnlyTargets | net/finder.go:204-210 | every node marked superior is the connected target of some event address |
| Finder.ScanCoversTargets | net/finder.go:204-216 | every connected target of an event address is marked superior, and every unconnected one is being dialed when this node is an SBP |
| Finder.Notify | net/finder.go:138-145 | every registered observer, and only those, receives the current SBP status |
| Finder.SubscribedNotified | net/finder.go:120-145 | a new subscriber is told the current SBP status, and after `unSub` it is told nothing |
| Finder.ReceiveProducers | net/finder.go:191-222 | SBP status is set exactly when this node's address is in the event; `sbps` only grows and every event address carries `now`; other stamps are kept; only `selfIsSBP`, `sbps` and `dialing` change; started IDs are new to `dialing` and distinct; a non-SBP starts no dial; observers are told the new status |
| Finder.SbpsNeverPruned | net/finder.go:179-185 | an address that was an SBP, or is announced now, is an SBP after every producer event |
| Finder.StartAnnouncesProducers | net/finder.go:147-185 | after `start` reads the vote map, `isSBP` holds for every producer it listed and for every earlier SBP |
| Finder.TargetNodes | net/finder.go:273-275 | ranging over the targets visits every target node and nothing else |
| Finder.TargetNodesIds | net/finder.go:273-275 | the IDs visited by the range over the targets are exactly the targets' IDs |
| Finder.DialTargets | net/finder.go:273-275 | dialing every target adds exactly the targets' IDs to `dialing`, starts one attempt per new ID, and changes nothing else |
| Finder.FirstPhase | net/finder.go:267-277 | below the ceiling the static nodes, plus all targets when this node is an SBP, join `dialing`; at or above it nothing changes; only `dialing` changes, and the started attempts are exactly the new IDs, none twice |
| Finder.SecondPhase | net/finder.go:279-285 | the resolver is asked for twice the free slots exactly when the total is below the ceiling, and every node it returns is dialed; only `dialing` changes, and the started attempts are exactly the new IDs, none twice |
| Finder.Tick | net/finder.go:260-290 | one tick: the first phase, then a resolver request of 2 × (maxPeers − recomputed total) exactly when the recomputed total is below the ceiling; every started attempt is for a new ID and no ID is started twice |
| Finder.Sub | net/finder.go:120-129 | the observer is registered under the current counter, which then increments; the id handed out was not in use |
| Finder.UnSub | net/finder.go:131-136 | only that id is removed |
| Finder.SubIdsIncrease | net/finder.go:124-126 | successive subscriptions receive strictly increasing, distinct ids |
| Finder.Stop | net/finder.go:167-173 | an open `term` is closed; a closed one stays closed; a nil one (before `start`) panics |
| Finder.StopIdempotent | net/finder.go:168-171 | a second `stop` is a no-op |
| Finder.StartThenStop | net/finder.go:147-173 | after `start` has made the channel, `stop` closes it instead of panicking |
| Finder.Start | net/finder.go:147-165 | `term` is made; when the vote map is read, every producer is stamped with `now`, every other stamp is kept, and SBP status is set if this node is a producer; a failed read changes nothing else |
| Finder.ParseStatic | net/finder.go:105-113 | all strings parse, in order, or the result is the first string that does not |
| Finder.NewFinder | net/finder.go:92-118 | a new finder has empty targets, dialing, sbps and observers, is not an SBP, and holds the parsed static nodes; a bad static node is an error |
| EventSystem.AnyEqual | rpcapi/api/filters/event_system.go:234-240 | the inner loop finds the topic exactly when it is in the range |
| EventSystem.PositionsMatch | rpcapi/api/filters/event_system.go:230-245 | the outer loop passes exactly when each position is a wildcard or holds a topic from its range |
| EventSystem.FilterLog | rpcapi/api/filters/event_system.go:226-246 | false when the log has fewer topics than the filter has positions; otherwise true exactly when every position is empty or contains the log's topic there |
| EventSystem.AddrInRange | rpcapi/api/filters/event_system.go:211-217 | a nil range passes every event; otherwise the address must be present and `from ≤ height ≤ to`, with 0 meaning unbounded |
| EventSystem.MatchLogs | rpcapi/api/filters/event_system.go:218-223 | the matching logs in their original order, each tagged with the event hash, address and `removed` |
| EventSystem.FilterLogs | rpcapi/api/filters/event_system.go:206-224 | nothing for an event without logs or outside the address range; otherwise exactly the matching logs, in order, tagged with the event's hash, address and `removed` |
| Seqs.FilterMembers | rpcapi/api/filters/event_system.go:218-222 | an element is kept exactly when it is in the input and passes the predicate |
| EventSystem.FilterLogsMembers | rpcapi/api/filters/event_system.go:206-224 | a log is reported exactly when the event passes the address gate and the log passes the topic filter |
| EventSystem.CollectLogs | rpcapi/api/filters/event_system.go:194-199 | a log subscriber collects exactly the entries `filterLogs` reports for some event |
| EventSystem.CollectLogsAppend | rpcapi/api/filters/event_system.go:194-199 | the entries of two event lists in a row are those of the first followed by those of the second, so events are visited in order and duplicates kept |
| EventSystem.CollectLogsSingle | rpcapi/api/filters/event_system.go:194-199 | one event contributes exactly what `filterLogs` reports for it |
| EventSystem.AccountBlocks | rpcapi/api/filters/event_system.go:154-158 | one account block per event, in order, with the event's hash and `removed` |
| EventSystem.HeightEntries | rpcapi/api/filters/event_system.go:159-162 | each event is filed under its own address with its height, decimal height string and hash |
| Grouping.GroupSelect | rpcapi/api/filters/event_system.go:159-174 | the append-grouping map has a key exactly when some entry has it, and its list is that key's values in entry order |
| EventSystem.ByAddress | rpcapi/api/filters/event_system.go:180-191 | a subscriber by address receives its address's group exactly when that group exists |
| EventSystem.LogDeliveries | rpcapi/api/filters/event_system.go:192-203 | a log subscriber receives its collected logs exactly when there are any |
| EventSystem.HandleAcEvent | rpcapi/api/filters/event_system.go:150-204 | nothing is sent for an empty list; otherwise every account-block subscriber receives one block per event |
| EventSystem.HeightDelivery | rpcapi/api/filters/event_system.go:180-185 | a height subscriber is served exactly when some event comes from its address, and receives those events' blocks in event order |
| EventSystem.RecipientsAreKeys | rpcapi/api/filters/event_system.go:163-174 | the onroad grouping has an entry for exactly the events' recipients and their send blocks' recipients |
| EventSystem.OnroadEntriesComplete | rpcapi/api/filters/event_system.go:163-175 | every event's block is filed under its `ToAddr` and every send block under its own, each carrying the `removed` flag |
| EventSystem.OnroadDelivery | rpcapi/api/filters/event_system.go:186-191 | an onroad subscriber is served exactly when its address receives an event or a send block, and receives those blocks in arrival order |
| EventSystem.LogsDelivery | rpcapi/api/filters/event_system.go:192-203 | a log subscriber is served exactly when its filter matches at least one log, and receives every match |
| EventSystem.SnapshotBlocks | rpcapi/api/filters/event_system.go:141-144 | one snapshot block per event, in order, with the same hash and height, the decimal height string and `removed` |
| EventSystem.HandleSbEvent | rpcapi/api/filters/event_system.go:137-148 | nothing for an empty list; otherwise every snapshot subscriber, and only those, receives the block list |
| EventSystem.SnapshotHeightStrings | rpcapi/api/filters/event_system.go:143 | the height string of each snapshot block reads back as its height |
| EventSystem.InitialIndex | rpcapi/api/filters/event_system.go:100-102 | the loop starts with nothing installed |
| EventSystem.Install | rpcapi/api/filters/event_system.go:114-117 | install files the subscription under its type and id and leaves every other entry as it was |
| EventSystem.Uninstall | rpcapi/api/filters/event_system.go:118-121 | uninstall deletes only that type and id |
| EventSystem.InstallUninstall | rpcapi/api/filters/event_system.go:114-121 | uninstalling a freshly installed subscription restores the set of installed entries |
| Decimal.FormatUint | interval/store/block_leveldb_store.go:67-69 | the decimal height string is non-empty, all digits, and has no `_` |
| Decimal.ParseFormat | interval/store/block_leveldb_store.go:68 | a decimal height string reads back as the height |
| Decimal.FormatInjective | interval/store/block_leveldb_store.go:68 | distinct heights give distinct decimal strings |
| BigEndian.PutUint64 | interval/store/block_leveldb_store.go:72-73 | the height index value is eight bytes |
| BigEndian.DecodeEncode | interval/store/block_leveldb_store.go:165 | big-endian decoding inverts big-endian encoding of any number that fits |
| BigEndian.EncodeDecode | interval/store/block_leveldb_store.go:165 | encoding a decoded byte string at its own width gives the string back |
| BigEndian.Uint64 | interval/store/block_leveldb_store.go:165 | reading eight bytes and writing the value back with `PutUint64` gives those eight bytes, so the two are inverse both ways |
| BigEndian.RoundTrip | interval/store/block_leveldb_store.go:72-73 | `Uint64(PutUint64(h)) = h` for every 64-bit height |
| Bytes.CopyFixed | p2p/protocols.go:65 | `copy` into a zeroed array keeps the array length, copies the common prefix and leaves the rest zero |
| Bytes.CopyFixedExact | p2p/protocols.go:65 | copying a value of exactly the array's length copies it unchanged |
| BlockStore.HashKey | interval/store/block_leveldb_store.go:64-66 | a hash key is the prefix, then `_`, then the hash |
| BlockStore.HeightKey | interval/store/block_leveldb_store.go:67-69 | a height key is the prefix, then `_`, then the decimal height, which holds no further `_` |
| BlockStore.SnapshotHashKey | interval/store/block_leveldb_store.go:40-42 | snapshot hash keys start with `sh_` |
| BlockStore.AccountHashKey | interval/store/block_leveldb_store.go:43-45 | account hash keys start with `ah_` |
| BlockStore.AccountSourceHashKey | interval/store/block_leveldb_store.go:46-48 | a source-hash key is `as__` followed by the hash: the prefix already ends in the separator and `genHashKey` adds another |
| BlockStore.SnapshotHeightKey | interval/store/block_leveldb_store.go:49-51 | snapshot height keys start with `se_` |
| BlockStore.AccountHeightKey | interval/store/block_leveldb_store.go:52-54 | account height keys start with `ae_` |
| BlockStore.AccountHeadKey | interval/store/block_leveldb_store.go:60-62 | an account head key is `ahe_` followed by the address, so it starts with `ahe`, unlike the constant snapshot head key `she` |
| BlockStore.SplitAtLastSeparator | interval/store/block_leveldb_store.go:64-69 | a key `x + "_" + u` whose tail has no `_` determines both `x` and `u` |
| BlockStore.AccountHeightKeyInjective | interval/store/block_leveldb_store.go:52-54 | equal account height keys come from the same address and height |
| BlockStore.SnapshotHeightKeyInjective | interval/store/block_leveldb_store.go:49-51 | equal snapshot height keys come from the same height |
| BlockStore.AccountHashKeyInjective | interval/store/block_leveldb_store.go:43-45 | equal account hash keys come from the same address and hash when hashes hold no `_` |
| BlockStore.AccountHashKeyAmbiguous | interval/store/block_leveldb_store.go:43-45 | without that condition two different (address, hash) pairs share a key |
| BlockStore.PutAccount | interval/store/block_leveldb_store.go:85-98 | the hash key maps to the eight-byte height, the height key to the serialised block, and no other key changes |
| BlockStore.PutSnapshot | interval/store/block_leveldb_store.go:71-83 | the same two writes under the snapshot keys, and no other key changes |
| BlockStore.DeleteAccount | interval/store/block_leveldb_store.go:107-112 | exactly the height key and the hash key are removed |
| BlockStore.DeleteSnapshot | interval/store/block_leveldb_store.go:100-105 | exactly the snapshot height key and hash key are removed |
| BlockStore.SetSnapshotHead | interval/store/block_leveldb_store.go:114-121 | only `she` changes, to the serialised head |
| BlockStore.SetAccountHead | interval/store/block_leveldb_store.go:123-131 | only `ahe_` + address changes, to the serialised head |
| BlockStore.PutSourceHash | interval/store/block_leveldb_store.go:219-226 | only the source-hash key changes |
| BlockStore.DeleteSourceHash | interval/store/block_leveldb_store.go:228-231 | only the source-hash key is removed |
| BlockStore.Read | interval/store/block_leveldb_store.go:193-204 | a missing key reads as nil, and a present value is whatever the decoder makes of it |
| BlockStore.GetSnapshotHead | interval/store/block_leveldb_store.go:133-144 | the snapshot head is found exactly when `she` is present and its value decodes, and is that decoded value; otherwise nil |
| BlockStore.GetAccountHead | interval/store/block_leveldb_store.go:146-157 | an account head is found exactly when its key is present and its value decodes, and is that decoded value; a missing key or an undecodable value reads as nil |
| BlockStore.GetSnapshotByHeight | interval/store/block_leveldb_store.go:170-181 | a snapshot block is found by height exactly when the height key is present and its value decodes, and is that decoded block; otherwise nil |
| BlockStore.GetAccountByHeight | interval/store/block_leveldb_store.go:193-204 | an account block is found by height exactly when the height key is present and its value decodes, and is that decoded block; a missing key or an undecodable value reads as nil |
| BlockStore.GetSnapshotByHash | interval/store/block_leveldb_store.go:159-168 | a missing hash key is nil; the lookup panics exactly when the stored height is shorter than eight bytes; otherwise the first eight bytes are read as a big-endian height and the result is the snapshot block at that height |
| BlockStore.GetAccountByHash | interval/store/block_leveldb_store.go:183-191 | a missing hash key is nil; the lookup panics exactly when the stored height is shorter than eight bytes; otherwise the first eight bytes are read as a big-endian height and the result is that account's block at that height |
| BlockStore.GetAccountBySourceHash | interval/store/block_leveldb_store.go:206-217 | a missing source-hash key is nil |
| BlockStore.PutGetAccount | interval/store/block_leveldb_store.go:183-204 | after `PutAccount`, the lookup by height and the lookup by hash both return the block |
| BlockStore.PutGetSnapshot | interval/store/block_leveldb_store.go:159-181 | after `PutSnapshot`, the lookup by height and the lookup by hash both return the block |
| BlockStore.DeleteAccountForgets | interval/store/block_leveldb_store.go:107-112 | after `DeleteAccount`, neither lookup finds the block |
| BlockStore.DeleteSnapshotForgets | interval/store/block_leveldb_store.go:100-105 | after `DeleteSnapshot`, neither lookup finds the block |
| BlockStore.HeadRoundTrip | interval/store/block_leveldb_store.go:114-157 | `Set*Head` then `Get*Head` returns the same hash and height |
| BlockStore.SourceHashRoundTrip | interval/store/block_leveldb_store.go:206-231 | a source-hash link resolves to the block at the linked position, and after deletion to nothing |
| BlockStore.PutKeepsWellFormed | interval/store/block_leveldb_store.go:71-131 | a write keeps every hash-key value eight bytes long when the value it puts under a hash key is eight bytes |
| BlockStore.RemoveKeepsWellFormed | interval/store/block_leveldb_store.go:85-131 | deleting keys keeps every remaining hash-key value eight bytes long |
| BlockStore.WellFormedNeverCrashes | interval/store/block_leveldb_store.go:165 | when every hash-key value is eight bytes long, no lookup by hash panics |
| BlockStore.WritesKeepWellFormed | interval/store/block_leveldb_store.go:71-131 | every write of the store keeps every hash-key value eight bytes long |
| BlockStore.StepEstablishes | interval/store/block_leveldb_store.go:28-36 | after a genesis step, its signer has a block at the first height and a head |
| BlockStore.StepFrame | interval/store/block_leveldb_store.go:28-36 | one genesis iteration removes no key, writes only the block's hash key, height key and its signer's head key, and writes nothing when the signer already has a first-height block and a head |
| BlockStore.InitAccountGenesis | interval/store/block_leveldb_store.go:27-38 | initialisation never removes a key |
| BlockStore.StepPreserves | interval/store/block_leveldb_store.go:29-36 | a genesis step, at any height, writes only where nothing was, so it keeps what earlier steps established |
| BlockStore.InitEstablishesAll | interval/store/block_leveldb_store.go:27-38 | after initialisation every genesis signer has a first block and a head |
| BlockStore.InitLeavesEstablished | interval/store/block_leveldb_store.go:27-38 | initialisation of a store where every signer has both writes nothing |
| BlockStore.InitIdempotent | interval/store/block_leveldb_store.go:27-38 | running `initAccountGenesis` twice leaves the store as once |
| BlockStore.GenesisStored | interval/store/block_leveldb_store.go:29-32 | on an empty store each genesis block of a signer that occurs once is stored at the first height |
| BlockStore.GenesisStoredUpTo | interval/store/block_leveldb_store.go:28-32 | once the iterations have passed block `i`, its signer's first-height key holds block `i`'s serialization |
| BlockStore.GenesisOwnStep | interval/store/block_leveldb_store.go:29-32 | the iteration of block `i` stores its serialization at its signer's first height |
| BlockStore.GenesisLaterStep | interval/store/block_leveldb_store.go:28-32 | a later iteration, for another signer, leaves block `i`'s first-height key as it was |
| BlockStore.AbsentUntilOwnStep | interval/store/block_leveldb_store.go:28-32 | before the iteration of block `i`, nothing is stored at its signer's first height, so `GetAccountByHeight` returns nil there |
| BlockStore.OwnStepStores | interval/store/block_leveldb_store.go:29-32 | an iteration that finds nothing at its signer's first height stores its block's serialization there |
| BlockStore.OtherStepKeepsHeightKey | interval/store/block_leveldb_store.go:28-36 | the iteration of another signer's block neither adds, removes nor changes this signer's first-height entry |
| BlockStore.OffHeightGenesisNotFound | interval/store/block_leveldb_store.go:29-31 | the loop reads at the first height but writes at the block's own height, so a genesis block at any other height is never found at the first height |

## Left out

- Goroutines, channels, locks and `select` loops are left out. Examples: the
  `eventLoop` body and its stop path, the `finder.loop` ticker, `go f.doDial`,
  and `RpcSubscription` draining. Each entry point is one sequential step.
- Real ed25519, the blake2b `crypto.Hash` and `types.PubkeyToAddress` are
  foreign code. They are function fields, and `Crypto.Sound` assumes only the
  lengths and that signatures verify.
- Protobuf marshalling, `toProto`/`protoToNode`, the gencode serialisers and
  `vnode.ParseNode` are foreign code. They are function fields, with a round
  trip assumed where a proof needs it. Neighbors' node lists are carried
  unchanged.
- Serialisation errors, and the panics and early returns they cause in `Pack`
  and in the store's writes, are not modelled: serialisation is total.
- LevelDB I/O is not modelled. The database is a map, the only error is
  not-found, and `newBlockLeveldbStore` (opening the file) is not modelled.
- `genesisBlocks` and `common.FirstHeight` become parameters of
  `BlockStore.InitAccountGenesis`; `common.FirstHeight` is not part of this model.
- `time.Now`, the consensus API, `peerSet`, `Connector.ConnectNode` and the
  resolver are inputs: `now`, the producer list, `count`, `connected` and
  `getNodes`. The `SetSuperior` call is recorded as the `superior` list.
- `discover.send`, `tab.addNode`, `tab.closest` and `discover.receive` are
  recorded as a `Protocols.Reaction` or passed in as `Protocols.Closest`. The
  discovery table itself is not modelled.
- `FindNeighbors`, `SetResolver`, `Sub`/`UnSub` on the discovery subscriber, the
  `selfIsSBP` getter and `clean` are left out. They are one-line delegations
  outside the bookkeeping.
- The `SubscribeProducers` registration in `newFinder` is left out. The
  callback it registers is `Finder.ReceiveProducers`.
- `RpcSubscription`, the `Subscribe*` constructors, and the closing of the
  `installed` and `err` channels are left out; they are channel plumbing.
- `maxPacketLength` and `maxPayloadLength` are declared but not enforced, since
  the modelled paths do not check them.
- Finder.Tick: Go ranges over `targets` in an unspecified order. The model
  takes that order as an input `order`, which must list every target address.
- Protocols.ChecksumTamperDetected: it covers forged checksum bytes only. Forged
  signature or payload bytes are caught only if the hash resists collisions,
  and that is not assumed.
- BlockStore.GetAccountBySourceHash: its contract covers only the missing key.
  The resolution of a stored link is stated by `BlockStore.SourceHashRoundTrip`.
- BlockStore.InitIdempotent: proved only when every genesis block sits at the
  first height. The loop reads at `common.FirstHeight` but `PutAccount` writes
  at the block's own height, so the two keys coincide only then; genesis
  blocks are the chains' first blocks, which is what the loop relies on.
  `BlockStore.OffHeightGenesisNotFound` shows a block elsewhere is never
  found where the loop looks. Idempotence without the assumption is not
  stated.
- BlockStore.InitEstablishesAll: assumes every genesis block sits at the first
  height, for the reason above; without it the statement is false
  (`BlockStore.OffHeightGenesisNotFound`).
- BlockStore.GenesisStored: assumes every genesis block sits at the first
  height, for the reason above, and that its signer signs no other genesis
  block.
- BlockStore.StepEstablishes: assumes the block sits at the first height, for
  the reason above.
- EventSystem.HandleAcEvent: its contract covers account-block subscribers
  only. Height, onroad and log subscribers are covered by
  `EventSystem.HeightDelivery`, `EventSystem.OnroadDelivery` and
  `EventSystem.LogsDelivery`.

## Findings

| source | as written | input that shows it | evidently intended | confidence | as-written member | corrected member |
|---|---|---|---|---|---|---|
| p2p/protocols.go:271 | the checksum is re-computed with a 23-byte digest and compared with the 32-byte checksum that `composePacket` embeds | any packet `composePacket` builds, e.g. a packed Ping | re-hash with 32 bytes, as line 247 does | high, not executed | Protocols.AsWrittenRejectsComposed | Protocols.RoundTrip |
| p2p/protocols.go:258-268 | `packet[0]` and the slices up to byte 98 are taken without a length check | the one-byte packet `[1]` | reject packets shorter than 98 bytes with an error | high, not executed | Protocols.ShortPacketPanics | Protocols.UnPacket |
| p2p/protocols.go:302-306 | the unknown-code error is built and discarded, then `Deserialize` is called on a nil message | code 5 | return an unknown-code error | high, not executed | Protocols.UnknownCodePanics | Protocols.Decode |
| p2p/protocols.go:306 | the error returned by `Deserialize` is ignored | a Ping payload the protobuf decoder rejects | report the decode error | medium, not executed | Protocols.UnmarshalErrorIgnored | Protocols.DecodeSerialize |
| p2p/protocols.go:174 | FindNode looks up the nodes closest to the sender's `ID` | a FindNode from the all-zero ID whose target the table knows | look up the nodes closest to `Target` | high, not executed | Protocols.FindNodeLooksUpSender | Protocols.Handle |

=== FILE: bigendian.dfy ===
/** Big-endian fixed-width integers, as Go's `binary.BigEndian.PutUint64`
    and `binary.BigEndian.Uint64`. */
module BigEndian {
  import opened Bytes

  const U64Bound: int := 0x1_0000_0000_0000_0000

  type uint64 = x: int | 0 <= x < U64Bound

  function Pow256(k: nat): (p: nat)
    ensures p >= 1
  {
    if k == 0 then 1 else 256 * Pow256(k - 1)
  }

  /** The `k` low-order bytes of `n`, most significant first. */
  function Encode(n: nat, k: nat): (b: Bytes)
    ensures |b| == k
  {
    if k == 0 then [] else Encode(n / 256, k - 1) + [n % 256]
  }

  /** The unsigned value of `b` read most significant byte first. */
  function Decode(b: Bytes): (n: nat)
    ensures n < Pow256(|b|)
  {
    if |b| == 0 then 0 else Decode(b[..|b| - 1]) * 256 + b[|b| - 1]
  }

  lemma {:induction false} DecodeEncode(n: nat, k: nat)
    requires n < Pow256(k)
    ensures Decode(Encode(n, k)) == n
  {
    if k > 0 {
      assert n / 256 < Pow256(k - 1);
      DecodeEncode(n / 256, k - 1);
      var b := Encode(n, k);
      assert b[..|b| - 1] == Encode(n / 256, k - 1);
    }
  }

  /** Encoding a decoded string at its own width gives the string back. */
  lemma {:induction false} EncodeDecode(b: Bytes)
    ensures Encode(Decode(b), |b|) == b
  {
    if |b| > 0 {
      var prefix := b[..|b| - 1];
      EncodeDecode(prefix);
      var n := Decode(b);
      assert n / 256 == Decode(prefix) && n % 256 == b[|b| - 1];
      assert b == prefix + [b[|b| - 1]];
    }
  }

  /** `PutUint64` into an 8-byte buffer. */
  function PutUint64(n: uint64): (b: Bytes)
    ensures |b| == 8
  {
    Encode(n, 8)
  }

  /** `Uint64` reads the first eight bytes; Go panics on a shorter slice,
      which callers must rule out. */
  function Uint64(b: Bytes): (n: uint64)
    requires |b| >= 8
    ensures PutUint64(n) == b[..8]
  {
    assert Pow256(8) == U64Bound;
    EncodeDecode(b[..8]);
    Decode(b[..8])
  }

  /** The height index round-trips: `Uint64(PutUint64(h)) == h`. */
  lemma RoundTrip(n: uint64)
    ensures Uint64(PutUint64(n)) == n
  {
    assert Pow256(8) == U64Bound;
    DecodeEncode(n, 8);
    assert PutUint64(n)[..8] == PutUint64(n);
  }
}

=== FILE: blockstore.dfy ===
/** The block store of the interval prototype: account and snapshot blocks,
    chain heads and source-hash links kept in one key-value database under
    string keys built from fixed prefixes. The database is a map from key to
    value; a missing key is LevelDB's "not found". */
module BlockStore {
  import opened Wrappers
  import opened Bytes
  import opened BigEndian
  import Decimal

  type Db = map<string, Bytes>

  /** `common.HashHeight`. */
  datatype HashHeight = HashHeight(hash: string, height: uint64)

  /** `common.AccountHashH`: a block's position on an account chain. */
  datatype AccountHashH = AccountHashH(addr: string, hash: string, height: uint64)

  /** The fields of `common.AccountStateBlock` the store reads; the rest of
      the block is carried in `body`. */
  datatype AccountBlock = AccountBlock(signer: string, height: uint64, hash: string, body: Bytes)

  /** The fields of `common.SnapshotBlock` the store reads. */
  datatype SnapshotBlock = SnapshotBlock(height: uint64, hash: string, body: Bytes)

  /** The generated binary codecs, as functions. */
  datatype Serde = Serde(
    serAccount: AccountBlock -> Bytes, deAccount: Bytes -> Option<AccountBlock>,
    serSnapshot: SnapshotBlock -> Bytes, deSnapshot: Bytes -> Option<SnapshotBlock>,
    serHashHeight: HashHeight -> Bytes, deHashHeight: Bytes -> Option<HashHeight>,
    serAccountHashH: AccountHashH -> Bytes, deAccountHashH: Bytes -> Option<AccountHashH>)

  /** Every codec decodes what it encodes. */
  ghost predicate SerdeSound(s: Serde) {
    && (forall b :: s.deAccount(s.serAccount(b)) == Some(b))
    && (forall b :: s.deSnapshot(s.serSnapshot(b)) == Some(b))
    && (forall h :: s.deHashHeight(s.serHashHeight(h)) == Some(h))
    && (forall h :: s.deAccountHashH(s.serAccountHashH(h)) == Some(h))
  }

  // ---------------------------------------------------------------------------
  // Keys

  const Separator: char := '_'

  function HashKey(prefix: string, hash: string): (k: string)
    ensures |k| == |prefix| + 1 + |hash| && k[..|prefix|] == prefix && k[|prefix|] == Separator
    ensures k[|prefix| + 1..] == hash
  {
    prefix + [Separator] + hash
  }

  /** The height is written in decimal, so the key holds no separator after
      the one that ends the prefix. */
  function HeightKey(prefix: string, height: uint64): (k: string)
    ensures |k| > |prefix| + 1 && k[..|prefix|] == prefix && k[|prefix|] == Separator
    ensures forall i :: |prefix| < i < |k| ==> k[i] != Separator
    ensures k[|prefix| + 1..] == Decimal.FormatUint(height)
  {
    prefix + [Separator] + Decimal.FormatUint(height)
  }

  function SnapshotHashKey(hash: string): (k: string)
    ensures |k| >= 3 && k[..3] == "sh_"
  {
    HashKey("sh", hash)
  }

  function AccountHashKey(address: string, hash: string): (k: string)
    ensures |k| >= 3 && k[..3] == "ah_"
  {
    HashKey("ah_" + address, hash)
  }

  /** The prefix already ends in the separator, so the key carries two. */
  function AccountSourceHashKey(hash: string): (k: string)
    ensures |k| == 4 + |hash| && k[..4] == "as__" && k[4..] == hash
    ensures |k| >= 3 && k[..3] == "as_"
  {
    HashKey("as_", hash)
  }

  function SnapshotHeightKey(height: uint64): (k: string)
    ensures |k| >= 3 && k[..3] == "se_"
  {
    HeightKey("se", height)
  }

  function AccountHeightKey(address: string, height: uint64): (k: string)
    ensures |k| >= 3 && k[..3] == "ae_"
  {
    HeightKey("ae_" + address, height)
  }

  const SnapshotHeadKey: string := "she"

  function AccountHeadKey(address: string): (k: string)
    ensures |k| >= 3 && k[..3] == "ahe"
    ensures |k| == 4 + |address| && k[..4] == "ahe_" && k[4..] == address
  {
    "ahe_" + address
  }

  /** Splitting `x + "_" + u` where `u` has no separator recovers `x` and `u`. */
  lemma {:induction false} SplitAtLastSeparator(x: string, u: string, y: string, v: string)
    requires Separator !in u && Separator !in v
    requires x + [Separator] + u == y + [Separator] + v
    ensures x == y && u == v
  {
    var k := x + [Separator] + u;
    if |x| < |y| {
      SeparatorInLongerTail(x, u, y, v);
      assert false;
    } else if |y| < |x| {
      SeparatorInLongerTail(y, v, x, u);
      assert false;
    } else {
      assert x == k[..|x|] && y == k[..|y|];
      assert u == k[|x| + 1..] && v == k[|y| + 1..];
    }
  }

  /** When the separators of two equal keys sit at different places, the
      later one lies inside the tail of the shorter prefix. */
  lemma SeparatorInLongerTail(x: string, u: string, y: string, v: string)
    requires x + [Separator] + u == y + [Separator] + v
    requires |x| < |y|
    ensures Separator in u
  {
    var k := x + [Separator] + u;
    assert u[|y| - |x| - 1] == k[|y|];
  }

  /** Two account height keys are equal only for the same address and height. */
  lemma AccountHeightKeyInjective(a: string, n: uint64, b: string, m: uint64)
    requires AccountHeightKey(a, n) == AccountHeightKey(b, m)
    ensures a == b && n == m
  {
    SplitAtLastSeparator("ae_" + a, Decimal.FormatUint(n), "ae_" + b, Decimal.FormatUint(m));
    assert a == ("ae_" + a)[3..];
    Decimal.FormatInjective(n, m);
  }

  /** Two snapshot height keys are equal only for the same height. */
  lemma SnapshotHeightKeyInjective(n: uint64, m: uint64)
    requires SnapshotHeightKey(n) == SnapshotHeightKey(m)
    ensures n == m
  {
    SplitAtLastSeparator("se", Decimal.FormatUint(n), "se", Decimal.FormatUint(m));
    Decimal.FormatInjective(n, m);
  }

  /** Account hash keys are injective as long as block hashes contain no
      separator (they are hexadecimal). */
  lemma AccountHashKeyInjective(a: string, h: string, b: string, g: string)
    requires Separator !in h && Separator !in g
    requires AccountHashKey(a, h) == AccountHashKey(b, g)
    ensures a == b && h == g
  {
    SplitAtLastSeparator("ah_" + a, h, "ah_" + b, g);
    assert a == ("ah_" + a)[3..];
  }

  /** Without that restriction the account hash key is ambiguous. */
  lemma AccountHashKeyAmbiguous()
    ensures AccountHashKey("vite_a", "b") == AccountHashKey("vite", "a_b")
  {
  }

  // ---------------------------------------------------------------------------
  // Writes

  /** `PutAccount`: the hash key maps to the height as eight big-endian bytes
      and the height key to the encoded block; nothing else changes. */
  function PutAccount(s: Serde, db: Db, address: string, b: AccountBlock): (r: Db)
    ensures AccountHashKey(address, b.hash) in r && AccountHeightKey(address, b.height) in r
    ensures r[AccountHashKey(address, b.hash)] == PutUint64(b.height)
    ensures r[AccountHeightKey(address, b.height)] == s.serAccount(b)
    ensures forall k :: k != AccountHashKey(address, b.hash) && k != AccountHeightKey(address, b.height) ==>
      (k in r <==> k in db) && (k in db ==> r[k] == db[k])
  {
    db[AccountHashKey(address, b.hash) := PutUint64(b.height)][AccountHeightKey(address, b.height) := s.serAccount(b)]
  }

  /** `PutSnapshot`: the same two writes under the snapshot keys. */
  function PutSnapshot(s: Serde, db: Db, b: SnapshotBlock): (r: Db)
    ensures SnapshotHashKey(b.hash) in r && SnapshotHeightKey(b.height) in r
    ensures r[SnapshotHashKey(b.hash)] == PutUint64(b.height)
    ensures r[SnapshotHeightKey(b.height)] == s.serSnapshot(b)
    ensures forall k :: k != SnapshotHashKey(b.hash) && k != SnapshotHeightKey(b.height) ==>
      (k in r <==> k in db) && (k in db ==> r[k] == db[k])
  {
    db[SnapshotHashKey(b.hash) := PutUint64(b.height)][SnapshotHeightKey(b.height) := s.serSnapshot(b)]
  }

  /** `DeleteAccount`: removes the height key and the hash key and nothing else. */
  function DeleteAccount(db: Db, address: string, hh: HashHeight): (r: Db)
    ensures AccountHeightKey(address, hh.height) !in r && AccountHashKey(address, hh.hash) !in r
    ensures forall k :: k != AccountHashKey(address, hh.hash) && k != AccountHeightKey(address, hh.height) ==>
      (k in r <==> k in db) && (k in db ==> r[k] == db[k])
  {
    db - {AccountHeightKey(address, hh.height)} - {AccountHashKey(address, hh.hash)}
  }

  /** `DeleteSnapshot`. */
  function DeleteSnapshot(db: Db, hh: HashHeight): (r: Db)
    ensures SnapshotHeightKey(hh.height) !in r && SnapshotHashKey(hh.hash) !in r
    ensures forall k :: k != SnapshotHashKey(hh.hash) && k != SnapshotHeightKey(hh.height) ==>
      (k in r <==> k in db) && (k in db ==> r[k] == db[k])
  {
    db - {SnapshotHeightKey(hh.height)} - {SnapshotHashKey(hh.hash)}
  }

  /** `SetSnapshotHead`. */
  function SetSnapshotHead(s: Serde, db: Db, hh: HashHeight): (r: Db)
    ensures SnapshotHeadKey in r && r[SnapshotHeadKey] == s.serHashHeight(hh)
    ensures forall k :: k != SnapshotHeadKey ==> (k in r <==> k in db) && (k in db ==> r[k] == db[k])
  {
    db[SnapshotHeadKey := s.serHashHeight(hh)]
  }

  /** `SetAccountHead`. */
  function SetAccountHead(s: Serde, db: Db, address: string, hh: HashHeight): (r: Db)
    ensures AccountHeadKey(address) in r && r[AccountHeadKey(address)] == s.serHashHeight(hh)
    ensures forall k :: k != AccountHeadKey(address) ==> (k in r <==> k in db) && (k in db ==> r[k] == db[k])
  {
    db[AccountHeadKey(address) := s.serHashHeight(hh)]
  }

  /** `PutSourceHash`. */
  function PutSourceHash(s: Serde, db: Db, hash: string, ah: AccountHashH): (r: Db)
    ensures AccountSourceHashKey(hash) in r && r[AccountSourceHashKey(hash)] == s.serAccountHashH(ah)
    ensures forall k :: k != AccountSourceHashKey(hash) ==> (k in r <==> k in db) && (k in db ==> r[k] == db[k])
  {
    db[AccountSourceHashKey(hash) := s.serAccountHashH(ah)]
  }

  /** `DeleteSourceHash`. */
  function DeleteSourceHash(db: Db, hash: string): (r: Db)
    ensures AccountSourceHashKey(hash) !in r
    ensures forall k :: k != AccountSourceHashKey(hash) ==> (k in r <==> k in db) && (k in db ==> r[k] == db[k])
  {
    db - {AccountSourceHashKey(hash)}
  }

  // ---------------------------------------------------------------------------
  // Reads

  /** A lookup through a hash key: the key may be missing, or its value too
      short for `binary.BigEndian.Uint64`, which panics. */
  datatype Got<+T> = Absent | Present(value: T) | Crash

  /** A value read under `key` and decoded; a missing key or a decode error is nil. */
  function Read<T>(db: Db, key: string, de: Bytes -> Option<T>): (r: Option<T>)
    ensures key !in db ==> r.None?
    ensures key in db ==> r == de(db[key])
  {
    if key in db then de(db[key]) else None
  }

  function GetSnapshotHead(s: Serde, db: Db): (r: Option<HashHeight>)
    ensures r.Some? <==> SnapshotHeadKey in db && s.deHashHeight(db[SnapshotHeadKey]).Some?
    ensures r.Some? ==> s.deHashHeight(db[SnapshotHeadKey]) == r
  {
    Read(db, SnapshotHeadKey, s.deHashHeight)
  }

  function GetAccountHead(s: Serde, db: Db, address: string): (r: Option<HashHeight>)
    ensures r.Some? <==> AccountHeadKey(address) in db && s.deHashHeight(db[AccountHeadKey(address)]).Some?
    ensures r.Some? ==> s.deHashHeight(db[AccountHeadKey(address)]) == r
  {
    Read(db, AccountHeadKey(address), s.deHashHeight)
  }

  function GetSnapshotByHeight(s: Serde, db: Db, height: uint64): (r: Option<SnapshotBlock>)
    ensures r.Some? <==> SnapshotHeightKey(height) in db && s.deSnapshot(db[SnapshotHeightKey(height)]).Some?
    ensures r.Some? ==> s.deSnapshot(db[SnapshotHeightKey(height)]) == r
  {
    Read(db, SnapshotHeightKey(height), s.deSnapshot)
  }

  function GetAccountByHeight(s: Serde, db: Db, address: string, height: uint64): (r: Option<AccountBlock>)
    ensures r.Some? <==> AccountHeightKey(address, height) in db && s.deAccount(db[AccountHeightKey(address, height)]).Some?
    ensures r.Some? ==> s.deAccount(db[AccountHeightKey(address, height)]) == r
  {
    Read(db, AccountHeightKey(address, height), s.deAccount)
  }

  function Lift<T>(o: Option<T>): (g: Got<T>)
    ensures g.Crash? == false
    ensures g.Present? <==> o.Some?
    ensures o.Some? ==> g.value == o.value
  {
    if o.Some? then Present(o.value) else Absent
  }

  /** `GetSnapshotByHash`: reads the height stored under the hash key, then
      the block at that height. */
  function GetSnapshotByHash(s: Serde, db: Db, hash: string): (r: Got<SnapshotBlock>)
    ensures SnapshotHashKey(hash) !in db ==> r.Absent?
    ensures r.Crash? <==> SnapshotHashKey(hash) in db && |db[SnapshotHashKey(hash)]| < 8
    ensures SnapshotHashKey(hash) in db && |db[SnapshotHashKey(hash)]| >= 8 ==>
      r == Lift(GetSnapshotByHeight(s, db, BigEndian.Decode(db[SnapshotHashKey(hash)][..8])))
  {
    var key := SnapshotHashKey(hash);
    if key !in db then Absent
    else if |db[key]| < 8 then Crash
    else Lift(GetSnapshotByHeight(s, db, Uint64(db[key])))
  }

  /** `GetAccountByHash`. */
  function GetAccountByHash(s: Serde, db: Db, address: string, hash: string): (r: Got<AccountBlock>)
    ensures AccountHashKey(address, hash) !in db ==> r.Absent?
    ensures r.Crash? <==> AccountHashKey(address, hash) in db && |db[AccountHashKey(address, hash)]| < 8
    ensures AccountHashKey(address, hash) in db && |db[AccountHashKey(address, hash)]| >= 8 ==>
      r == Lift(GetAccountByHeight(s, db, address, BigEndian.Decode(db[AccountHashKey(address, hash)][..8])))
  {
    var key := AccountHashKey(address, hash);
    if key !in db then Absent
    else if |db[key]| < 8 then Crash
    else Lift(GetAccountByHeight(s, db, address, Uint64(db[key])))
  }

  /** `GetAccountBySourceHash`: follows the stored account position to the
      block at that height. */
  function GetAccountBySourceHash(s: Serde, db: Db, hash: string): (r: Option<AccountBlock>)
    ensures AccountSourceHashKey(hash) !in db ==> r.None?
  {
    match Read(db, AccountSourceHashKey(hash), s.deAccountHashH)
    case None => None
    case Some(h) => GetAccountByHeight(s, db, h.addr, h.height)
  }

  // ---------------------------------------------------------------------------
  // Round trips

  lemma PutGetAccount(s: Serde, db: Db, address: string, b: AccountBlock)
    requires SerdeSound(s)
    ensures GetAccountByHeight(s, PutAccount(s, db, address, b), address, b.height) == Some(b)
    ensures GetAccountByHash(s, PutAccount(s, db, address, b), address, b.hash) == Present(b)
  {
    var r := PutAccount(s, db, address, b);
    assert AccountHashKey(address, b.hash) != AccountHeightKey(address, b.height) by {
      assert AccountHashKey(address, b.hash)[..3] != AccountHeightKey(address, b.height)[..3];
    }
    RoundTrip(b.height);
  }

  lemma PutGetSnapshot(s: Serde, db: Db, b: SnapshotBlock)
    requires SerdeSound(s)
    ensures GetSnapshotByHeight(s, PutSnapshot(s, db, b), b.height) == Some(b)
    ensures GetSnapshotByHash(s, PutSnapshot(s, db, b), b.hash) == Present(b)
  {
    assert SnapshotHashKey(b.hash) != SnapshotHeightKey(b.height) by {
      assert SnapshotHashKey(b.hash)[..3] != SnapshotHeightKey(b.height)[..3];
    }
    RoundTrip(b.height);
  }

  /** After deleting a block's position neither lookup finds it. */
  lemma DeleteAccountForgets(s: Serde, db: Db, address: string, hh: HashHeight)
    ensures GetAccountByHeight(s, DeleteAccount(db, address, hh), address, hh.height).None?
    ensures GetAccountByHash(s, DeleteAccount(db, address, hh), address, hh.hash).Absent?
  {
  }

  lemma DeleteSnapshotForgets(s: Serde, db: Db, hh: HashHeight)
    ensures GetSnapshotByHeight(s, DeleteSnapshot(db, hh), hh.height).None?
    ensures GetSnapshotByHash(s, DeleteSnapshot(db, hh), hh.hash).Absent?
  {
  }

  lemma HeadRoundTrip(s: Serde, db: Db, address: string, hh: HashHeight)
    requires SerdeSound(s)
    ensures GetAccountHead(s, SetAccountHead(s, db, address, hh), address) == Some(hh)
    ensures GetSnapshotHead(s, SetSnapshotHead(s, db, hh)) == Some(hh)
  {
  }

  /** A source-hash link resolves to whatever block sits at the linked
      position, and removing it makes the link resolve to nothing. */
  lemma SourceHashRoundTrip(s: Serde, db: Db, hash: string, ah: AccountHashH)
    requires SerdeSound(s)
    ensures GetAccountBySourceHash(s, PutSourceHash(s, db, hash, ah), hash)
         == GetAccountByHeight(s, db, ah.addr, ah.height)
    ensures GetAccountBySourceHash(s, DeleteSourceHash(db, hash), hash).None?
  {
    assert AccountSourceHashKey(hash) != AccountHeightKey(ah.addr, ah.height) by {
      assert AccountSourceHashKey(hash)[..3] != AccountHeightKey(ah.addr, ah.height)[..3];
    }
  }

  // ---------------------------------------------------------------------------
  // The hash-key invariant

  /** The keys whose values `Get*ByHash` decodes as a height. */
  predicate HashFamily(k: string) {
    |k| >= 3 && (k[..3] == "sh_" || k[..3] == "ah_")
  }

  /** Every value under a snapshot or account hash key is eight bytes long, as
      the puts write it. */
  predicate WellFormed(db: Db) {
    forall k :: k in db && HashFamily(k) ==> |db[k]| == 8
  }

  /** In a well-formed database a hash lookup never panics. */
  lemma WellFormedNeverCrashes(s: Serde, db: Db, address: string, hash: string)
    requires WellFormed(db)
    ensures !GetAccountByHash(s, db, address, hash).Crash?
    ensures !GetSnapshotByHash(s, db, hash).Crash?
  {
    assert HashFamily(AccountHashKey(address, hash));
    assert HashFamily(SnapshotHashKey(hash));
  }

  lemma PutKeepsWellFormed(db: Db, k: string, v: Bytes)
    requires WellFormed(db)
    requires HashFamily(k) ==> |v| == 8
    ensures WellFormed(db[k := v])
  {
  }

  lemma RemoveKeepsWellFormed(db: Db, ks: set<string>)
    requires WellFormed(db)
    ensures WellFormed(db - ks)
  {
  }

  /** Every write of the store keeps the database well formed. */
  lemma WritesKeepWellFormed(s: Serde, db: Db, address: string, hash: string,
                             ab: AccountBlock, sb: SnapshotBlock, hh: HashHeight, ah: AccountHashH)
    requires WellFormed(db)
    ensures WellFormed(PutAccount(s, db, address, ab))
    ensures WellFormed(PutSnapshot(s, db, sb))
    ensures WellFormed(DeleteAccount(db, address, hh))
    ensures WellFormed(DeleteSnapshot(db, hh))
    ensures WellFormed(SetAccountHead(s, db, address, hh))
    ensures WellFormed(SetSnapshotHead(s, db, hh))
    ensures WellFormed(PutSourceHash(s, db, hash, ah))
    ensures WellFormed(DeleteSourceHash(db, hash))
  {
    var ahk := AccountHashKey(address, ab.hash);
    PutKeepsWellFormed(db, ahk, PutUint64(ab.height));
    assert !HashFamily(AccountHeightKey(address, ab.height));
    PutKeepsWellFormed(db[ahk := PutUint64(ab.height)], AccountHeightKey(address, ab.height), s.serAccount(ab));
    var shk := SnapshotHashKey(sb.hash);
    PutKeepsWellFormed(db, shk, PutUint64(sb.height));
    assert !HashFamily(SnapshotHeightKey(sb.height));
    PutKeepsWellFormed(db[shk := PutUint64(sb.height)], SnapshotHeightKey(sb.height), s.serSnapshot(sb));
    RemoveKeepsWellFormed(db, {AccountHeightKey(address, hh.height)});
    RemoveKeepsWellFormed(db - {AccountHeightKey(address, hh.height)}, {AccountHashKey(address, hh.hash)});
    RemoveKeepsWellFormed(db, {SnapshotHeightKey(hh.height)});
    RemoveKeepsWellFormed(db - {SnapshotHeightKey(hh.height)}, {SnapshotHashKey(hh.hash)});
    assert !HashFamily(AccountHeadKey(address));
    PutKeepsWellFormed(db, AccountHeadKey(address), s.serHashHeight(hh));
    assert !HashFamily(SnapshotHeadKey) by {
      assert SnapshotHeadKey[..3] == "she";
    }
    PutKeepsWellFormed(db, SnapshotHeadKey, s.serHashHeight(hh));
    assert !HashFamily(AccountSourceHashKey(hash));
    PutKeepsWellFormed(db, AccountSourceHashKey(hash), s.serAccountHashH(ah));
    RemoveKeepsWellFormed(db, {AccountSourceHashKey(hash)});
  }

  // ---------------------------------------------------------------------------
  // Genesis

  /** The two facts `initAccountGenesis` establishes for one genesis block:
      something is stored at the first height of its signer's chain, and the
      signer has a head. */
  predicate Established(s: Serde, db: Db, g: AccountBlock, firstHeight: uint64) {
    GetAccountByHeight(s, db, g.signer, firstHeight).Some? && GetAccountHead(s, db, g.signer).Some?
  }

  /** The keys a genesis step of `g` may write. */
  function StepKeys(g: AccountBlock): set<string> {
    {AccountHashKey(g.signer, g.hash), AccountHeightKey(g.signer, g.height), AccountHeadKey(g.signer)}
  }

  /** One iteration of `initAccountGenesis`. */
  function GenesisStep(s: Serde, db: Db, g: AccountBlock, firstHeight: uint64): Db {
    var db1 := if GetAccountByHeight(s, db, g.signer, firstHeight).None? then PutAccount(s, db, g.signer, g) else db;
    if GetAccountHead(s, db1, g.signer).None? then SetAccountHead(s, db1, g.signer, HashHeight(g.hash, g.height)) else db1
  }

  /** A genesis step removes nothing, writes only the block's own keys, and
      writes nothing for a signer that already has a block at the first
      height and a head. */
  lemma StepFrame(s: Serde, db: Db, g: AccountBlock, firstHeight: uint64)
    ensures var r := GenesisStep(s, db, g, firstHeight);
      && db.Keys <= r.Keys && r.Keys <= db.Keys + StepKeys(g)
      && (forall k :: k in db && k !in StepKeys(g) ==> r[k] == db[k])
      && (Established(s, db, g, firstHeight) ==> r == db)
  {
  }

  /** `initAccountGenesis` over the genesis blocks in order. The first height
      is a parameter: `common.FirstHeight` is not part of this model. */
  function InitAccountGenesis(s: Serde, db: Db, genesis: seq<AccountBlock>, firstHeight: uint64): (r: Db)
    ensures db.Keys <= r.Keys
  {
    if |genesis| == 0 then db
    else GenesisStep(s, InitAccountGenesis(s, db, genesis[..|genesis| - 1], firstHeight), genesis[|genesis| - 1], firstHeight)
  }

  lemma StepEstablishes(s: Serde, db: Db, g: AccountBlock, firstHeight: uint64)
    requires SerdeSound(s) && g.height == firstHeight
    ensures Established(s, GenesisStep(s, db, g, firstHeight), g, firstHeight)
  {
    var db1 := if GetAccountByHeight(s, db, g.signer, firstHeight).None? then PutAccount(s, db, g.signer, g) else db;
    if GetAccountByHeight(s, db, g.signer, firstHeight).None? {
      PutGetAccount(s, db, g.signer, g);
    }
    assert GetAccountByHeight(s, db1, g.signer, firstHeight).Some?;
    if GetAccountHead(s, db1, g.signer).Some? {
    } else {
      assert AccountHeadKey(g.signer)[..3] != AccountHeightKey(g.signer, firstHeight)[..3];
    }
  }

  lemma StepPreserves(s: Serde, db: Db, g: AccountBlock, h: AccountBlock, firstHeight: uint64)
    requires Established(s, db, h, firstHeight)
    ensures Established(s, GenesisStep(s, db, g, firstHeight), h, firstHeight)
  {
    var hk := AccountHeightKey(h.signer, firstHeight);
    var headk := AccountHeadKey(h.signer);
    var db1 := if GetAccountByHeight(s, db, g.signer, firstHeight).None? then PutAccount(s, db, g.signer, g) else db;
    if GetAccountByHeight(s, db, g.signer, firstHeight).None? {
      assert g.signer != h.signer;
      assert hk != AccountHeightKey(g.signer, g.height) by {
        if hk == AccountHeightKey(g.signer, g.height) {
          AccountHeightKeyInjective(h.signer, firstHeight, g.signer, g.height);
        }
      }
      assert hk[..3] != AccountHashKey(g.signer, g.hash)[..3];
      assert headk[..3] != AccountHashKey(g.signer, g.hash)[..3];
      assert headk[..3] != AccountHeightKey(g.signer, g.height)[..3];
    }
    assert Established(s, db1, h, firstHeight);
    if GetAccountHead(s, db1, g.signer).None? {
      assert g.signer != h.signer;
      assert headk != AccountHeadKey(g.signer) by {
        assert headk[4..] == h.signer;
      }
      assert hk[..3] != AccountHeadKey(g.signer)[..3];
    }
  }

  lemma {:induction false} InitEstablishesAll(s: Serde, db: Db, genesis: seq<AccountBlock>, firstHeight: uint64)
    requires SerdeSound(s)
    requires forall i :: 0 <= i < |genesis| ==> genesis[i].height == firstHeight
    ensures forall i :: 0 <= i < |genesis| ==>
      Established(s, InitAccountGenesis(s, db, genesis, firstHeight), genesis[i], firstHeight)
  {
    if |genesis| > 0 {
      var prefix := genesis[..|genesis| - 1];
      var last := genesis[|genesis| - 1];
      var mid := InitAccountGenesis(s, db, prefix, firstHeight);
      InitEstablishesAll(s, db, prefix, firstHeight);
      StepEstablishes(s, mid, last, firstHeight);
      forall i | 0 <= i < |genesis| - 1
        ensures Established(s, InitAccountGenesis(s, db, genesis, firstHeight), genesis[i], firstHeight)
      {
        assert genesis[i] == prefix[i];
        StepPreserves(s, mid, last, genesis[i], firstHeight);
      }
    }
  }

  lemma {:induction false} InitLeavesEstablished(s: Serde, db: Db, genesis: seq<AccountBlock>, firstHeight: uint64)
    requires forall i :: 0 <= i < |genesis| ==> Established(s, db, genesis[i], firstHeight)
    ensures InitAccountGenesis(s, db, genesis, firstHeight) == db
  {
    if |genesis| > 0 {
      InitLeavesEstablished(s, db, genesis[..|genesis| - 1], firstHeight);
      assert Established(s, db, genesis[|genesis| - 1], firstHeight);
    }
  }

  /** Opening the store twice initialises the genesis blocks once: a second
      `initAccountGenesis` writes nothing. */
  lemma InitIdempotent(s: Serde, db: Db, genesis: seq<AccountBlock>, firstHeight: uint64)
    requires SerdeSound(s)
    requires forall i :: 0 <= i < |genesis| ==> genesis[i].height == firstHeight
    ensures var once := InitAccountGenesis(s, db, genesis, firstHeight);
      InitAccountGenesis(s, once, genesis, firstHeight) == once
  {
    InitEstablishesAll(s, db, genesis, firstHeight);
    InitLeavesEstablished(s, InitAccountGenesis(s, db, genesis, firstHeight), genesis, firstHeight);
  }

  /** On an empty database every genesis block whose signer occurs once is
      stored at the first height of its chain. */
  lemma GenesisStored(s: Serde, genesis: seq<AccountBlock>, firstHeight: uint64, i: nat)
    requires SerdeSound(s)
    requires forall j :: 0 <= j < |genesis| ==> genesis[j].height == firstHeight
    requires i < |genesis|
    requires forall j :: 0 <= j < |genesis| && j != i ==> genesis[j].signer != genesis[i].signer
    ensures GetAccountByHeight(s, InitAccountGenesis(s, map[], genesis, firstHeight), genesis[i].signer, firstHeight)
         == Some(genesis[i])
  {
    assert genesis[..|genesis|] == genesis;
    GenesisStoredUpTo(s, genesis, firstHeight, i, |genesis|);
  }

  /** The genesis lemmas assume every genesis block sits at the first height,
      and they need to: the loop reads the first height but `PutAccount`
      writes at the block's own, so a block anywhere else is never found
      there and is stored again on every initialisation. */
  lemma OffHeightGenesisNotFound(s: Serde, g: AccountBlock, firstHeight: uint64)
    requires g.height != firstHeight
    ensures GetAccountByHeight(s, InitAccountGenesis(s, map[], [g], firstHeight), g.signer, firstHeight).None?
  {
    assert [g][..0] == [];
    StepFrame(s, map[], g, firstHeight);
    var key := AccountHeightKey(g.signer, firstHeight);
    assert key != AccountHeightKey(g.signer, g.height) by {
      if key == AccountHeightKey(g.signer, g.height) {
        AccountHeightKeyInjective(g.signer, firstHeight, g.signer, g.height);
      }
    }
    assert key[..3] != AccountHashKey(g.signer, g.hash)[..3];
    assert key[..3] != AccountHeadKey(g.signer)[..3];
  }

  /** Every genesis block sits at the first height, and block `i`'s signer
      signs no other genesis block. */
  predicate UniqueAtFirst(genesis: seq<AccountBlock>, firstHeight: uint64, i: nat) {
    && i < |genesis|
    && (forall j :: 0 <= j < |genesis| ==> genesis[j].height == firstHeight)
    && (forall j :: 0 <= j < |genesis| && j != i ==> genesis[j].signer != genesis[i].signer)
  }

  /** What the first `n` iterations leave at block `i`'s first-height key. */
  function StoredAtFirst(s: Serde, genesis: seq<AccountBlock>, firstHeight: uint64, i: nat, n: nat): Option<Bytes>
    requires i < |genesis| && n <= |genesis|
  {
    var db := InitAccountGenesis(s, map[], genesis[..n], firstHeight);
    var key := AccountHeightKey(genesis[i].signer, firstHeight);
    if key in db then Some(db[key]) else None
  }

  /** Once block `i` has been processed, its serialisation is what its
      signer's first-height key holds. */
  lemma {:induction false} GenesisStoredUpTo(s: Serde, genesis: seq<AccountBlock>, firstHeight: uint64, i: nat, n: nat)
    requires UniqueAtFirst(genesis, firstHeight, i)
    requires i < n <= |genesis|
    ensures StoredAtFirst(s, genesis, firstHeight, i, n) == Some(s.serAccount(genesis[i]))
  {
    if n == i + 1 {
      GenesisOwnStep(s, genesis, firstHeight, i);
    } else {
      GenesisStoredUpTo(s, genesis, firstHeight, i, n - 1);
      GenesisLaterStep(s, genesis, firstHeight, i, n);
    }
  }

  /** The iteration of block `i` stores it at its signer's first height. */
  lemma GenesisOwnStep(s: Serde, genesis: seq<AccountBlock>, firstHeight: uint64, i: nat)
    requires UniqueAtFirst(genesis, firstHeight, i)
    ensures StoredAtFirst(s, genesis, firstHeight, i, i + 1) == Some(s.serAccount(genesis[i]))
  {
    assert genesis[..i + 1][..i] == genesis[..i];
    AbsentUntilOwnStep(s, genesis, firstHeight, i, i);
    OwnStepStores(s, InitAccountGenesis(s, map[], genesis[..i], firstHeight), genesis[i], firstHeight);
  }

  /** A later iteration, of another signer's block, leaves block `i`'s
      first-height key as it was. */
  lemma GenesisLaterStep(s: Serde, genesis: seq<AccountBlock>, firstHeight: uint64, i: nat, n: nat)
    requires UniqueAtFirst(genesis, firstHeight, i)
    requires i + 1 < n <= |genesis|
    ensures StoredAtFirst(s, genesis, firstHeight, i, n) == StoredAtFirst(s, genesis, firstHeight, i, n - 1)
  {
    assert genesis[..n][..n - 1] == genesis[..n - 1];
    OtherStepKeepsHeightKey(s, InitAccountGenesis(s, map[], genesis[..n - 1], firstHeight),
                            genesis[n - 1], genesis[i].signer, firstHeight);
  }

  /** The step of a block whose first height is empty stores the block there. */
  lemma OwnStepStores(s: Serde, db: Db, g: AccountBlock, firstHeight: uint64)
    requires g.height == firstHeight
    requires AccountHeightKey(g.signer, firstHeight) !in db
    ensures var r := GenesisStep(s, db, g, firstHeight);
      AccountHeightKey(g.signer, firstHeight) in r && r[AccountHeightKey(g.signer, firstHeight)] == s.serAccount(g)
  {
    assert AccountHeightKey(g.signer, firstHeight)[..3] != AccountHeadKey(g.signer)[..3];
  }

  /** Before the step of block `i`, nothing is stored at its signer's first height. */
  lemma {:induction false} AbsentUntilOwnStep(s: Serde, genesis: seq<AccountBlock>, firstHeight: uint64, i: nat, n: nat)
    requires UniqueAtFirst(genesis, firstHeight, i)
    requires n <= i
    ensures AccountHeightKey(genesis[i].signer, firstHeight) !in InitAccountGenesis(s, map[], genesis[..n], firstHeight)
  {
    if n > 0 {
      AbsentUntilOwnStep(s, genesis, firstHeight, i, n - 1);
      assert genesis[..n][..n - 1] == genesis[..n - 1];
      OtherStepKeepsHeightKey(s, InitAccountGenesis(s, map[], genesis[..n - 1], firstHeight),
                              genesis[n - 1], genesis[i].signer, firstHeight);
    }
  }

  /** The genesis step of another signer leaves this signer's first-height key alone. */
  lemma OtherStepKeepsHeightKey(s: Serde, db: Db, h: AccountBlock, signer: string, firstHeight: uint64)
    requires h.height == firstHeight && h.signer != signer
    ensures var key := AccountHeightKey(signer, firstHeight);
      var r := GenesisStep(s, db, h, firstHeight);
      (key in r <==> key in db) && (key in db ==> r[key] == db[key])
    ensures GetAccountByHeight(s, GenesisStep(s, db, h, firstHeight), signer, firstHeight)
         == GetAccountByHeight(s, db, signer, firstHeight)
  {
    var key := AccountHeightKey(signer, firstHeight);
    assert key != AccountHeightKey(h.signer, h.height) by {
      if key == AccountHeightKey(h.signer, h.height) {
        AccountHeightKeyInjective(signer, firstHeight, h.signer, h.height);
      }
    }
    assert key[..3] != AccountHashKey(h.signer, h.hash)[..3];
    assert key[..3] != AccountHeadKey(h.signer)[..3];
  }
}

=== FILE: bytes.dfy ===
/** Byte strings and the few slice operations of Go that the model needs. */
module Bytes {

  type byte = x: int | 0 <= x < 256

  type Bytes = seq<byte>

  /** A zero-filled byte string, as Go's `make([]byte, n)` or a fresh `[n]byte`. */
  function Zeros(n: nat): (z: Bytes)
    ensures |z| == n
    ensures forall i :: 0 <= i < n ==> z[i] == 0
  {
    seq(n, _ => 0)
  }

  /** Go's `copy(dst[:], src)` into a zero-valued array of length `n`: the first
      `min(n, |src|)` bytes come from `src`, the rest stay zero. */
  function CopyFixed(n: nat, src: Bytes): (dst: Bytes)
    ensures |dst| == n
    ensures forall i :: 0 <= i < n && i < |src| ==> dst[i] == src[i]
    ensures forall i :: |src| <= i < n ==> dst[i] == 0
  {
    if |src| >= n then src[..n] else src + Zeros(n - |src|)
  }

  /** Copying a value that already has the array's length changes nothing. */
  lemma CopyFixedExact(n: nat, src: Bytes)
    requires |src| == n
    ensures CopyFixed(n, src) == src
  {
  }
}

=== FILE: crypto.dfy ===
/** The cryptographic primitives the discovery protocol and the finder call,
    left uninterpreted: a `Suite` bundles them as function values and `Sound`
    states the only facts the model relies on. */
module Crypto {
  import opened Bytes

  const PublicKeyLen: nat := 32
  const SignatureLen: nat := 64

  datatype Suite = Suite(
    /** `PrivateKey.PubByte()`: the public half of a private key. */
    pubOf: Bytes -> Bytes,
    /** `ed25519.Sign(priv, msg)`. */
    sign: (Bytes, Bytes) -> Bytes,
    /** `ed25519.Verify(pub, msg, sig)`. */
    verify: (Bytes, Bytes, Bytes) -> bool,
    /** `crypto.VerifySig(pub, sig, msg)`, with the argument order of its call site. */
    verifySig: (Bytes, Bytes, Bytes) -> bool,
    /** `crypto.Hash(size, data)`: a digest of `size` bytes. */
    hash: (nat, Bytes) -> Bytes,
    /** `types.PubkeyToAddress(pub)`. */
    toAddress: Bytes -> Bytes
  )

  /** The minimal axioms: key and signature sizes, digest length, and that an
      honest signature verifies under the signer's public key with both verifiers. */
  ghost predicate Sound(c: Suite) {
    && (forall k :: |c.pubOf(k)| == PublicKeyLen)
    && (forall k, m :: |c.sign(k, m)| == SignatureLen)
    && (forall k, m :: c.verify(c.pubOf(k), m, c.sign(k, m)))
    && (forall k, m :: c.verifySig(c.pubOf(k), c.sign(k, m), m))
    && (forall n, x :: |c.hash(n, x)| == n)
  }
}

=== FILE: decimal.dfy ===
/** Base-10 rendering of unsigned integers, as Go's `strconv.FormatUint(n, 10)`. */
module Decimal {

  predicate IsDigit(c: char) {
    '0' <= c <= '9'
  }

  function DigitChar(d: nat): (c: char)
    requires d < 10
    ensures IsDigit(c)
  {
    "0123456789"[d]
  }

  function DigitValue(c: char): (d: nat)
    requires IsDigit(c)
    ensures d < 10
  {
    (c as int - '0' as int) as nat
  }

  /** The shortest decimal rendering of `n`, most significant digit first. */
  function FormatUint(n: nat): (s: string)
    ensures 1 <= |s|
    ensures forall i :: 0 <= i < |s| ==> IsDigit(s[i])
    ensures '_' !in s
    decreases n
  {
    if n < 10 then [DigitChar(n)] else FormatUint(n / 10) + [DigitChar(n % 10)]
  }

  /** Reads back a string of digits; the reference inverse of `FormatUint`. */
  function ParseUint(s: string): nat
    requires forall i :: 0 <= i < |s| ==> IsDigit(s[i])
  {
    if |s| == 0 then 0 else ParseUint(s[..|s| - 1]) * 10 + DigitValue(s[|s| - 1])
  }

  lemma {:induction false} ParseFormat(n: nat)
    ensures ParseUint(FormatUint(n)) == n
    decreases n
  {
    var s := FormatUint(n);
    if n < 10 {
      assert s[..0] == [];
    } else {
      ParseFormat(n / 10);
      assert s[..|s| - 1] == FormatUint(n / 10);
    }
  }

  /** Distinct numbers have distinct renderings. */
  lemma FormatInjective(a: nat, b: nat)
    requires FormatUint(a) == FormatUint(b)
    ensures a == b
  {
    ParseFormat(a);
    ParseFormat(b);
  }
}

=== FILE: eventsystem.dfy ===
/** Log and topic filtering and the fan-out of chain events to RPC
    subscriptions. A channel send is modelled as the list delivered to a
    subscription: each handler returns, per filter type and subscription id,
    the one message list that subscription receives. */
module EventSystem {
  import opened Wrappers
  import opened Bytes
  import opened Seqs
  import opened Grouping
  import Decimal

  type Address = Bytes
  type Hash = Bytes
  /** `rpc.ID`. */
  type SubId = string

  datatype FilterType =
    | LogsSubscription
    | AccountBlocksSubscription
    | AccountBlocksWithHeightSubscription
    | OnroadBlocksSubscription
    | SnapshotBlocksSubscription

  /** A height bound of 0 means unbounded on that side. */
  datatype HeightRange = HeightRange(fromHeight: nat, toHeight: nat)

  /** `addrRange == None` is Go's nil map: every address passes. */
  datatype FilterParam = FilterParam(addrRange: Option<map<Address, HeightRange>>, topics: seq<seq<Hash>>)

  datatype VmLog = VmLog(topics: seq<Hash>, data: Bytes)

  datatype SendBlock = SendBlock(hash: Hash, toAddr: Address)

  datatype AccountChainEvent = AccountChainEvent(
    hash: Hash, height: nat, addr: Address, toAddr: Address,
    sendBlocks: seq<SendBlock>, logs: seq<VmLog>)

  datatype SnapshotChainEvent = SnapshotChainEvent(hash: Hash, height: nat)

  datatype Logs = Logs(log: VmLog, hash: Hash, addr: Address, removed: bool)
  datatype AccountBlock = AccountBlock(hash: Hash, removed: bool)
  datatype AccountBlockWithHeight = AccountBlockWithHeight(height: nat, heightStr: string, hash: Hash, removed: bool)
  datatype SnapshotBlock = SnapshotBlock(hash: Hash, height: nat, heightStr: string, removed: bool)

  datatype Subscription = Subscription(id: SubId, typ: FilterType, addr: Address, param: FilterParam)

  /** What one send on a subscription's channel carries. */
  datatype Delivery =
    | AccountBlocksMsg(blocks: seq<AccountBlock>)
    | HeightBlocksMsg(heightBlocks: seq<AccountBlockWithHeight>)
    | LogsMsg(logs: seq<Logs>)
    | SnapshotBlocksMsg(snapshotBlocks: seq<SnapshotBlock>)

  /** The event loop's `index` of installed subscriptions. */
  type Index = map<FilterType, map<SubId, Subscription>>

  /** The subscriptions of one type; Go ranges over a missing one as empty. */
  function Subs(index: Index, t: FilterType): map<SubId, Subscription> {
    if t in index then index[t] else map[]
  }

  // ---------------------------------------------------------------------------
  // Filtering

  /** The inner loop of `filterLog`: does `t` equal some element of `range`. */
  function AnyEqual(range: seq<Hash>, t: Hash): (b: bool)
    ensures b <==> t in range
  {
    if |range| == 0 then false else range[0] == t || AnyEqual(range[1..], t)
  }

  /** The outer loop of `filterLog` from position `i` on. */
  function PositionsMatch(topics: seq<seq<Hash>>, logTopics: seq<Hash>, i: nat): (b: bool)
    requires i <= |topics| <= |logTopics|
    ensures b <==> forall j :: i <= j < |topics| ==> |topics[j]| == 0 || logTopics[j] in topics[j]
    decreases |topics| - i
  {
    if i == |topics| then true
    else if |topics[i]| == 0 then PositionsMatch(topics, logTopics, i + 1)
    else AnyEqual(topics[i], logTopics[i]) && PositionsMatch(topics, logTopics, i + 1)
  }

  /** `filterLog`: false when the log has fewer topics than the filter has
      positions; otherwise every position is a wildcard (empty range) or the
      log's topic there is in the range. */
  function FilterLog(topics: seq<seq<Hash>>, l: VmLog): (b: bool)
    ensures |l.topics| < |topics| ==> !b
    ensures b <==> (|l.topics| >= |topics| &&
      forall i :: 0 <= i < |topics| ==> |topics[i]| == 0 || l.topics[i] in topics[i])
  {
    if |l.topics| < |topics| then false else PositionsMatch(topics, l.topics, 0)
  }

  /** The address and height-range gate of `filterLogs`. */
  function AddrInRange(filter: FilterParam, e: AccountChainEvent): (b: bool)
    ensures filter.addrRange.None? ==> b
    ensures filter.addrRange.Some? ==>
      (b <==> && e.addr in filter.addrRange.value
              && var hr := filter.addrRange.value[e.addr];
                 (hr.fromHeight == 0 || hr.fromHeight <= e.height)
                 && (hr.toHeight == 0 || e.height <= hr.toHeight))
  {
    match filter.addrRange
    case None => true
    case Some(m) =>
      if e.addr !in m then false
      else
        var hr := m[e.addr];
        !((hr.fromHeight > 0 && hr.fromHeight > e.height) || (hr.toHeight > 0 && hr.toHeight < e.height))
  }

  function LogsOf(r: seq<Logs>): (ls: seq<VmLog>)
    ensures |ls| == |r|
    ensures forall i :: 0 <= i < |r| ==> ls[i] == r[i].log
  {
    seq(|r|, i requires 0 <= i < |r| => r[i].log)
  }

  /** The loop of `filterLogs` over the event's logs. */
  function MatchLogs(logs: seq<VmLog>, topics: seq<seq<Hash>>, hash: Hash, addr: Address, removed: bool): (r: seq<Logs>)
    ensures forall i :: 0 <= i < |r| ==> r[i].hash == hash && r[i].addr == addr && r[i].removed == removed
    ensures LogsOf(r) == Filter(logs, (l: VmLog) => FilterLog(topics, l))
  {
    if |logs| == 0 then []
    else
      var r0 := MatchLogs(logs[..|logs| - 1], topics, hash, addr, removed);
      var l := logs[|logs| - 1];
      var r := r0 + (if FilterLog(topics, l) then [Logs(l, hash, addr, removed)] else []);
      assert LogsOf(r) == LogsOf(r0) + (if FilterLog(topics, l) then [l] else []);
      r
  }

  /** `filterLogs`: nothing for an event without logs or outside the address
      range; otherwise the matching logs in their original order, each tagged
      with the event's hash, address and the `removed` flag. */
  function FilterLogs(e: AccountChainEvent, filter: FilterParam, removed: bool): (r: seq<Logs>)
    ensures |e.logs| == 0 ==> r == []
    ensures !AddrInRange(filter, e) ==> r == []
    ensures AddrInRange(filter, e) ==> LogsOf(r) == Filter(e.logs, (l: VmLog) => FilterLog(filter.topics, l))
    ensures forall i :: 0 <= i < |r| ==> r[i].hash == e.hash && r[i].addr == e.addr && r[i].removed == removed
  {
    if |e.logs| == 0 then []
    else if !AddrInRange(filter, e) then []
    else MatchLogs(e.logs, filter.topics, e.hash, e.addr, removed)
  }

  /** A log is reported for an event exactly when the event passes the address
      gate and the log passes the topic filter. */
  lemma FilterLogsMembers(e: AccountChainEvent, filter: FilterParam, removed: bool, l: VmLog)
    ensures l in LogsOf(FilterLogs(e, filter, removed)) <==>
      AddrInRange(filter, e) && l in e.logs && FilterLog(filter.topics, l)
  {
    FilterMembers(e.logs, (x: VmLog) => FilterLog(filter.topics, x), l);
  }

  /** The logs one log subscriber collects over a whole event list: exactly
      the entries `filterLogs` reports for some event. */
  function CollectLogs(events: seq<AccountChainEvent>, filter: FilterParam, removed: bool): (r: seq<Logs>)
    ensures |events| == 0 ==> r == []
    ensures forall x :: x in r <==> exists j :: 0 <= j < |events| && x in FilterLogs(events[j], filter, removed)
  {
    if |events| == 0 then []
    else CollectLogs(events[..|events| - 1], filter, removed) + FilterLogs(events[|events| - 1], filter, removed)
  }

  /** The entries of one event list followed by another are the entries of
      the first, then those of the second: events are visited in order and
      duplicates are kept. */
  lemma {:induction false} CollectLogsAppend(a: seq<AccountChainEvent>, b: seq<AccountChainEvent>, filter: FilterParam, removed: bool)
    ensures CollectLogs(a + b, filter, removed) == CollectLogs(a, filter, removed) + CollectLogs(b, filter, removed)
    decreases |b|
  {
    if |b| == 0 {
      assert a + b == a;
    } else {
      var b' := b[..|b| - 1];
      var e := b[|b| - 1];
      assert (a + b)[..|a + b| - 1] == a + b';
      assert (a + b)[|a + b| - 1] == e;
      CollectLogsAppend(a, b', filter, removed);
      var ca, cb, fe := CollectLogs(a, filter, removed), CollectLogs(b', filter, removed), FilterLogs(e, filter, removed);
      assert CollectLogs(a + b, filter, removed) == (ca + cb) + fe;
      assert CollectLogs(b, filter, removed) == cb + fe;
      AppendAssoc(ca, cb, fe);
    }
  }

  /** A single event contributes exactly what `filterLogs` reports for it. */
  lemma CollectLogsSingle(e: AccountChainEvent, filter: FilterParam, removed: bool)
    ensures CollectLogs([e], filter, removed) == FilterLogs(e, filter, removed)
  {
    assert [e][..0] == [];
  }

  // ---------------------------------------------------------------------------
  // Account chain events

  function AccountBlocks(events: seq<AccountChainEvent>, removed: bool): (msgs: seq<AccountBlock>)
    ensures |msgs| == |events|
    ensures forall i :: 0 <= i < |events| ==> msgs[i] == AccountBlock(events[i].hash, removed)
  {
    seq(|events|, i requires 0 <= i < |events| => AccountBlock(events[i].hash, removed))
  }

  function HeightBlock(e: AccountChainEvent, removed: bool): AccountBlockWithHeight {
    AccountBlockWithHeight(e.height, Decimal.FormatUint(e.height), e.hash, removed)
  }

  /** Each event filed under its own address. */
  function HeightEntries(events: seq<AccountChainEvent>, removed: bool): (r: seq<(Address, AccountBlockWithHeight)>)
    ensures |r| == |events|
    ensures forall i :: 0 <= i < |events| ==> r[i] == (events[i].addr, HeightBlock(events[i], removed))
  {
    seq(|events|, i requires 0 <= i < |events| => (events[i].addr, HeightBlock(events[i], removed)))
  }

  /** Each event filed under its recipient, followed by each of its send
      blocks filed under theirs. */
  function OnroadEntries(events: seq<AccountChainEvent>, removed: bool): seq<(Address, AccountBlock)> {
    if |events| == 0 then []
    else
      var e := events[|events| - 1];
      OnroadEntries(events[..|events| - 1], removed)
        + [(e.toAddr, AccountBlock(e.hash, removed))]
        + SendEntries(e, removed)
  }

  function SendEntries(e: AccountChainEvent, removed: bool): seq<(Address, AccountBlock)> {
    seq(|e.sendBlocks|, j requires 0 <= j < |e.sendBlocks| =>
          (e.sendBlocks[j].toAddr, AccountBlock(e.sendBlocks[j].hash, removed)))
  }

  /** Every event's block and every send block is filed under its recipient,
      carrying the `removed` flag, and nothing else is filed. */
  lemma {:induction false} OnroadEntriesComplete(events: seq<AccountChainEvent>, removed: bool)
    ensures var r := OnroadEntries(events, removed);
      && (forall x :: x in r ==> x.1.removed == removed)
      && (forall i :: 0 <= i < |events| ==> (events[i].toAddr, AccountBlock(events[i].hash, removed)) in r)
      && (forall i, j :: 0 <= i < |events| && 0 <= j < |events[i].sendBlocks| ==>
            (events[i].sendBlocks[j].toAddr, AccountBlock(events[i].sendBlocks[j].hash, removed)) in r)
  {
    if |events| > 0 {
      var prefix := events[..|events| - 1];
      var e := events[|events| - 1];
      OnroadEntriesComplete(prefix, removed);
      var sends := SendEntries(e, removed);
      var r := OnroadEntries(events, removed);
      assert r == OnroadEntries(prefix, removed) + [(e.toAddr, AccountBlock(e.hash, removed))] + sends;
      forall x | x in r ensures x.1.removed == removed {
        if x in sends {
          var j :| 0 <= j < |sends| && sends[j] == x;
        }
      }
      forall i | 0 <= i < |events| ensures (events[i].toAddr, AccountBlock(events[i].hash, removed)) in r {
        if i < |prefix| {
          assert prefix[i] == events[i];
        }
      }
      forall i, j | 0 <= i < |events| && 0 <= j < |events[i].sendBlocks|
        ensures (events[i].sendBlocks[j].toAddr, AccountBlock(events[i].sendBlocks[j].hash, removed)) in r
      {
        if i < |prefix| {
          assert prefix[i] == events[i];
        } else {
          assert sends[j] in sends;
        }
      }
    }
  }

  /** The deliveries to subscribers by address: a subscriber whose address
      has a group receives that group, the others receive nothing. */
  function ByAddress<V>(subs: map<SubId, Subscription>, groups: map<Address, seq<V>>, wrap: seq<V> -> Delivery): (out: map<SubId, Delivery>)
    ensures forall id :: id in out <==> id in subs && subs[id].addr in groups
    ensures forall id :: id in out ==> out[id] == wrap(groups[subs[id].addr])
  {
    map id | id in subs && subs[id].addr in groups :: wrap(groups[subs[id].addr])
  }

  /** The deliveries to log subscribers: those whose filter collects at least
      one log receive the collected logs. */
  function LogDeliveries(subs: map<SubId, Subscription>, events: seq<AccountChainEvent>, removed: bool): (out: map<SubId, Delivery>)
    ensures forall id :: id in out <==> id in subs && |CollectLogs(events, subs[id].param, removed)| > 0
    ensures forall id :: id in out ==> out[id] == LogsMsg(CollectLogs(events, subs[id].param, removed))
  {
    map id | id in subs && |CollectLogs(events, subs[id].param, removed)| > 0 ::
      LogsMsg(CollectLogs(events, subs[id].param, removed))
  }

  /** What one account event list sends, per subscription type; snapshot
      subscribers receive nothing from it. */
  datatype AcDeliveries = AcDeliveries(
    accountBlocks: map<SubId, Delivery>,
    heightBlocks: map<SubId, Delivery>,
    onroadBlocks: map<SubId, Delivery>,
    logs: map<SubId, Delivery>)

  /** `handleAcEvent`. Nothing is sent for an empty list. Otherwise all
      account-block subscribers receive one block per event; a subscriber by
      address receives its address's height or onroad group when that group
      exists (HeightDelivery, OnroadDelivery); a log subscriber receives its
      collected logs when there are any (LogsDelivery). */
  function HandleAcEvent(index: Index, events: seq<AccountChainEvent>, removed: bool): (out: AcDeliveries)
    ensures |events| == 0 ==> out == AcDeliveries(map[], map[], map[], map[])
    ensures |events| > 0 ==>
      && out.accountBlocks.Keys == Subs(index, AccountBlocksSubscription).Keys
      && forall id :: id in out.accountBlocks ==>
           out.accountBlocks[id] == AccountBlocksMsg(AccountBlocks(events, removed))
  {
    if |events| == 0 then AcDeliveries(map[], map[], map[], map[])
    else
      var msgs := AccountBlocks(events, removed);
      var ab := Subs(index, AccountBlocksSubscription);
      AcDeliveries(
        map id | id in ab :: AccountBlocksMsg(msgs),
        ByAddress(Subs(index, AccountBlocksWithHeightSubscription), Group(HeightEntries(events, removed)),
                  (b: seq<AccountBlockWithHeight>) => HeightBlocksMsg(b)),
        ByAddress(Subs(index, OnroadBlocksSubscription), Group(OnroadEntries(events, removed)),
                  (b: seq<AccountBlock>) => AccountBlocksMsg(b)),
        LogDeliveries(Subs(index, LogsSubscription), events, removed))
  }

  /** A height subscriber is served exactly when some event comes from its
      address, and then receives those events' blocks in event order. */
  lemma HeightDelivery(index: Index, events: seq<AccountChainEvent>, removed: bool, id: SubId)
    requires |events| > 0
    requires id in Subs(index, AccountBlocksWithHeightSubscription)
    ensures
      var a := Subs(index, AccountBlocksWithHeightSubscription)[id].addr;
      var out := HandleAcEvent(index, events, removed).heightBlocks;
      && (id in out <==> exists i :: 0 <= i < |events| && events[i].addr == a)
      && (id in out ==> out[id] == HeightBlocksMsg(Select(HeightEntries(events, removed), a)))
  {
    var a := Subs(index, AccountBlocksWithHeightSubscription)[id].addr;
    var entries := HeightEntries(events, removed);
    GroupSelect(entries, a);
    if a in Keys(entries) {
      var i :| 0 <= i < |entries| && entries[i].0 == a;
      assert events[i].addr == a;
    }
    if exists i :: 0 <= i < |events| && events[i].addr == a {
      var i :| 0 <= i < |events| && events[i].addr == a;
      assert entries[i].0 == a;
    }
  }

  /** An onroad subscriber is served exactly when its address is the recipient
      of an event or of one of its send blocks, and then receives those blocks
      in arrival order. */
  lemma OnroadDelivery(index: Index, events: seq<AccountChainEvent>, removed: bool, id: SubId)
    requires |events| > 0
    requires id in Subs(index, OnroadBlocksSubscription)
    ensures
      var a := Subs(index, OnroadBlocksSubscription)[id].addr;
      var out := HandleAcEvent(index, events, removed).onroadBlocks;
      && (id in out <==> a in Recipients(events))
      && (id in out ==> out[id] == AccountBlocksMsg(Select(OnroadEntries(events, removed), a)))
  {
    var a := Subs(index, OnroadBlocksSubscription)[id].addr;
    GroupSelect(OnroadEntries(events, removed), a);
    RecipientsAreKeys(events, removed);
  }

  /** Every address an account event or one of its send blocks is addressed to. */
  function Recipients(events: seq<AccountChainEvent>): set<Address> {
    if |events| == 0 then {}
    else
      var e := events[|events| - 1];
      Recipients(events[..|events| - 1]) + {e.toAddr} + SendRecipients(e)
  }

  function SendRecipients(e: AccountChainEvent): set<Address> {
    set j | 0 <= j < |e.sendBlocks| :: e.sendBlocks[j].toAddr
  }

  lemma {:induction false} RecipientsAreKeys(events: seq<AccountChainEvent>, removed: bool)
    ensures Keys(OnroadEntries(events, removed)) == Recipients(events)
  {
    if |events| > 0 {
      var prefix := events[..|events| - 1];
      var e := events[|events| - 1];
      RecipientsAreKeys(prefix, removed);
      var head := OnroadEntries(prefix, removed);
      var sends := SendEntries(e, removed);
      var mine := [(e.toAddr, AccountBlock(e.hash, removed))] + sends;
      assert OnroadEntries(events, removed) == head + mine;
      KeysAppend(head, mine);
      KeysAppend([(e.toAddr, AccountBlock(e.hash, removed))], sends);
      assert Keys([(e.toAddr, AccountBlock(e.hash, removed))]) == {e.toAddr} by {
        assert [(e.toAddr, AccountBlock(e.hash, removed))][0].0 == e.toAddr;
      }
      assert Keys(sends) == SendRecipients(e) by {
        forall x | x in SendRecipients(e) ensures x in Keys(sends) {
          var j :| 0 <= j < |e.sendBlocks| && x == e.sendBlocks[j].toAddr;
          assert sends[j].0 == x;
        }
      }
    }
  }

  lemma KeysAppend<K, V>(a: seq<(K, V)>, b: seq<(K, V)>)
    ensures Keys(a + b) == Keys(a) + Keys(b)
  {
    forall x | x in Keys(a + b) ensures x in Keys(a) + Keys(b) {
      var i :| 0 <= i < |a + b| && (a + b)[i].0 == x;
      if i >= |a| {
        assert b[i - |a|].0 == x;
      }
    }
    forall x | x in Keys(b) ensures x in Keys(a + b) {
      var i :| 0 <= i < |b| && b[i].0 == x;
      assert (a + b)[i + |a|].0 == x;
    }
    forall x | x in Keys(a) ensures x in Keys(a + b) {
      var i :| 0 <= i < |a| && a[i].0 == x;
      assert (a + b)[i].0 == x;
    }
  }

  /** A log subscriber is served exactly when its filter matches at least one
      log of the event list, and then receives every match. */
  lemma LogsDelivery(index: Index, events: seq<AccountChainEvent>, removed: bool, id: SubId)
    requires |events| > 0
    requires id in Subs(index, LogsSubscription)
    ensures
      var p := Subs(index, LogsSubscription)[id].param;
      var out := HandleAcEvent(index, events, removed).logs;
      && (id in out <==> |CollectLogs(events, p, removed)| > 0)
      && (id in out ==> out[id] == LogsMsg(CollectLogs(events, p, removed)))
  {
  }

  // ---------------------------------------------------------------------------
  // Snapshot chain events

  function SnapshotBlocks(events: seq<SnapshotChainEvent>, removed: bool): (blocks: seq<SnapshotBlock>)
    ensures |blocks| == |events|
    ensures forall i :: 0 <= i < |events| ==>
      && blocks[i].hash == events[i].hash
      && blocks[i].height == events[i].height
      && blocks[i].heightStr == Decimal.FormatUint(events[i].height)
      && blocks[i].removed == removed
  {
    seq(|events|, i requires 0 <= i < |events| =>
      SnapshotBlock(events[i].hash, events[i].height, Decimal.FormatUint(events[i].height), removed))
  }

  /** `handleSbEvent`: nothing is sent for an empty list; otherwise every
      snapshot subscriber receives one block per event, in event order. */
  function HandleSbEvent(index: Index, events: seq<SnapshotChainEvent>, removed: bool): (out: map<SubId, Delivery>)
    ensures |events| == 0 ==> out == map[]
    ensures |events| > 0 ==>
      && out.Keys == Subs(index, SnapshotBlocksSubscription).Keys
      && forall id :: id in out ==> out[id] == SnapshotBlocksMsg(SnapshotBlocks(events, removed))
  {
    if |events| == 0 then map[]
    else
      var blocks := SnapshotBlocks(events, removed);
      map id | id in Subs(index, SnapshotBlocksSubscription) :: SnapshotBlocksMsg(blocks)
  }

  /** The heights a snapshot subscriber sees can be read back from their strings. */
  lemma SnapshotHeightStrings(events: seq<SnapshotChainEvent>, removed: bool, i: nat)
    requires i < |events|
    ensures Decimal.ParseUint(SnapshotBlocks(events, removed)[i].heightStr) == events[i].height
  {
    Decimal.ParseFormat(events[i].height);
  }

  // ---------------------------------------------------------------------------
  // Install and uninstall

  predicate Installed(index: Index, t: FilterType, id: SubId) {
    t in index && id in index[t]
  }

  /** The index the event loop starts with: one empty map per filter type,
      so nothing is installed. */
  function InitialIndex(): (index: Index)
    ensures forall t, id :: !Installed(index, t, id)
  {
    map[LogsSubscription := map[], AccountBlocksSubscription := map[],
        AccountBlocksWithHeightSubscription := map[], OnroadBlocksSubscription := map[],
        SnapshotBlocksSubscription := map[]]
  }

  /** `install`: files the subscription under its type and id; every other
      entry is unchanged. */
  function Install(index: Index, s: Subscription): (r: Index)
    ensures Installed(r, s.typ, s.id) && r[s.typ][s.id] == s
    ensures forall t, id :: (t != s.typ || id != s.id) ==>
      (Installed(r, t, id) <==> Installed(index, t, id))
      && (Installed(index, t, id) ==> r[t][id] == index[t][id])
  {
    index[s.typ := Subs(index, s.typ)[s.id := s]]
  }

  /** `uninstall`: removes the entry for the subscription's type and id and
      nothing else. */
  function Uninstall(index: Index, s: Subscription): (r: Index)
    ensures !Installed(r, s.typ, s.id)
    ensures forall t, id :: (t != s.typ || id != s.id) ==>
      (Installed(r, t, id) <==> Installed(index, t, id))
      && (Installed(index, t, id) ==> r[t][id] == index[t][id])
  {
    index[s.typ := Subs(index, s.typ) - {s.id}]
  }

  /** Uninstalling right after installing a fresh subscription leaves the set
      of installed entries as it was. */
  lemma InstallUninstall(index: Index, s: Subscription, t: FilterType, id: SubId)
    requires !Installed(index, s.typ, s.id)
    ensures Installed(Uninstall(Install(index, s), s), t, id) <==> Installed(index, t, id)
  {
  }
}

=== FILE: finder.dfy ===
/** The peer finder: admission bookkeeping that decides which discovered
    nodes to dial under the `maxPeers` ceiling, preferring nodes owned by super
    block producers (SBPs).

    Each goroutine-driven entry point (`receiveNode`, `receiveProducers`, one
    tick of `loop`, the completion of `doDial`) is one pure step on a `Finder`
    record. The peer set, the connector, the resolver, the clock and the
    consensus API are inputs: `count` is `peers.countWithoutSBP()`, `connected`
    says whether `peers.get(id)` finds a peer, `getNodes` is the resolver. A
    step returns the nodes whose asynchronous `doDial` it started. */
module Finder {
  import opened Wrappers
  import opened Bytes
  import Crypto

  /** Public key (32) followed by the signature of the node ID (64). */
  const ExtLen: nat := 96

  type Address = Bytes
  type NodeId = Bytes

  /** `vnode.Node`; the endpoint is kept opaque. */
  datatype Node = Node(id: NodeId, endpoint: Bytes, ext: Bytes)

  /** The `term` channel: not yet made (before `start`), open, or closed. */
  datatype Term = Unmade | Open | Closed

  /** An observer callback, known only by an opaque label. */
  type Observer = nat

  datatype Finder = Finder(
    self: Address,
    selfIsSBP: bool,
    targets: map<Address, Node>,
    maxPeers: int,
    staticNodes: seq<Node>,
    dialing: set<NodeId>,
    sbps: map<Address, int>,
    nextSubId: int,
    observers: map<int, Observer>,
    term: Term)

  /** Every registered observer id was handed out by an earlier `Sub`. */
  predicate Valid(f: Finder) {
    && 0 <= f.nextSubId
    && forall id :: id in f.observers ==> 0 <= id < f.nextSubId
  }

  function Ids(nodes: seq<Node>): set<NodeId> {
    set n | n in nodes :: n.id
  }

  lemma IdsAppend(a: seq<Node>, b: seq<Node>)
    ensures Ids(a + b) == Ids(a) + Ids(b)
  {
    forall x | x in Ids(a + b) ensures x in Ids(a) + Ids(b) {
      var n :| n in a + b && n.id == x;
    }
  }

  /** No two started attempts are for the same node ID. */
  predicate DistinctIds(nodes: seq<Node>) {
    forall i, j :: 0 <= i < j < |nodes| ==> nodes[i].id != nodes[j].id
  }

  lemma DistinctAppend(a: seq<Node>, b: seq<Node>)
    requires DistinctIds(a) && DistinctIds(b)
    requires Ids(a) !! Ids(b)
    ensures DistinctIds(a + b)
  {
    forall i, j | 0 <= i < j < |a + b| ensures (a + b)[i].id != (a + b)[j].id {
      if i < |a| && j >= |a| {
        assert (a + b)[i].id in Ids(a);
        assert (a + b)[j] == b[j - |a|];
        assert (a + b)[j].id in Ids(b);
      }
    }
  }

  function TargetIds(f: Finder): set<NodeId> {
    set a | a in f.targets :: f.targets[a].id
  }

  // ---------------------------------------------------------------------------
  // Extension field

  /** `setNodeExt`: a zeroed 96-byte field holding the public key of `key`
      followed by its signature of the node ID. */
  function SetNodeExt(c: Crypto.Suite, key: Bytes, node: Node): (r: Node)
    ensures r.id == node.id && r.endpoint == node.endpoint
    ensures |r.ext| == ExtLen
    ensures Crypto.Sound(c) ==> r.ext == c.pubOf(key) + c.sign(key, node.id)
  {
    var ext := CopyFixed(32, c.pubOf(key)) + CopyFixed(64, c.sign(key, node.id));
    assert Crypto.Sound(c) ==> CopyFixed(32, c.pubOf(key)) == c.pubOf(key) by {
      if Crypto.Sound(c) {
        CopyFixedExact(32, c.pubOf(key));
      }
    }
    assert Crypto.Sound(c) ==> CopyFixed(64, c.sign(key, node.id)) == c.sign(key, node.id) by {
      if Crypto.Sound(c) {
        CopyFixedExact(64, c.sign(key, node.id));
      }
    }
    node.(ext := ext)
  }

  /** `parseNodeExt`: the owner address, present exactly when the field is long
      enough and the signature after the first 32 bytes verifies over the node
      ID under the key in the first 32 bytes. */
  function ParseNodeExt(c: Crypto.Suite, node: Node): (r: Option<Address>)
    ensures |node.ext| < ExtLen ==> r.None?
    ensures |node.ext| >= ExtLen ==> (r.Some? <==> c.verify(node.ext[..32], node.id, node.ext[32..]))
    ensures r.Some? ==> r.value == c.toAddress(node.ext[..32])
  {
    if |node.ext| < ExtLen then None
    else
      var pub := node.ext[..32];
      if c.verify(pub, node.id, node.ext[32..]) then Some(c.toAddress(pub)) else None
  }

  /** Extension round trip: a node stamped with `key` parses back to the address
      of `key`'s public key. */
  lemma ExtRoundTrip(c: Crypto.Suite, key: Bytes, node: Node)
    requires Crypto.Sound(c)
    ensures ParseNodeExt(c, SetNodeExt(c, key, node)) == Some(c.toAddress(c.pubOf(key)))
  {
    var ext := SetNodeExt(c, key, node).ext;
    assert ext[..32] == c.pubOf(key);
    assert ext[32..] == c.sign(key, node.id);
  }

  // ---------------------------------------------------------------------------
  // Dialing

  datatype DialStep = DialStep(f: Finder, started: seq<Node>)

  /** `dial`: a node already being dialed is ignored; otherwise its ID joins
      `dialing` and one connection attempt starts. */
  function Dial(f: Finder, node: Node): (r: DialStep)
    ensures r.f.(dialing := f.dialing) == f
    ensures r.f.dialing == f.dialing + {node.id}
    ensures node.id in f.dialing <==> r.started == []
    ensures node.id !in f.dialing <==> r.started == [node]
  {
    if node.id in f.dialing then DialStep(f, [])
    else DialStep(f.(dialing := f.dialing + {node.id}), [node])
  }

  /** `r` only adds to `dialing`, changes nothing else, and starts exactly
      one attempt for each ID it adds. */
  predicate Grows(f: Finder, r: DialStep) {
    && r.f == f.(dialing := r.f.dialing)
    && f.dialing <= r.f.dialing
    && Ids(r.started) == r.f.dialing - f.dialing
    && DistinctIds(r.started)
  }

  lemma GrowsThen(f: Finder, a: DialStep, b: DialStep)
    requires Grows(f, a) && Grows(a.f, b)
    ensures Grows(f, DialStep(b.f, a.started + b.started))
  {
    IdsAppend(a.started, b.started);
    DistinctAppend(a.started, b.started);
  }

  /** `dial` on each node in turn. */
  function DialAll(f: Finder, nodes: seq<Node>): (r: DialStep)
    ensures Grows(f, r)
    ensures r.f.dialing == f.dialing + Ids(nodes)
    ensures forall i :: 0 <= i < |r.started| ==> r.started[i] in nodes
  {
    if |nodes| == 0 then DialStep(f, [])
    else
      var s := DialAll(f, nodes[..|nodes| - 1]);
      var d := Dial(s.f, nodes[|nodes| - 1]);
      assert nodes == nodes[..|nodes| - 1] + [nodes[|nodes| - 1]];
      IdsAppend(nodes[..|nodes| - 1], [nodes[|nodes| - 1]]);
      GrowsThen(f, s, d);
      DialStep(d.f, s.started + d.started)
  }

  /** De-duplication: dialing the same node twice before the attempt completes
      starts exactly one attempt. */
  lemma DialTwiceStartsOnce(f: Finder, node: Node)
    requires node.id !in f.dialing
    ensures DialAll(f, [node, node]).started == [node]
  {
    var r := DialAll(f, [node, node]);
    assert Ids([node, node]) == {node.id};
    assert Ids(r.started) == {node.id};
    assert r.started[0] in [node, node];
  }

  /** `doDial` after `ConnectNode` returns: the ID leaves `dialing` whatever
      the connection attempt returned (its result is discarded, so it is not
      an input), and nothing else changes. */
  function DoDialDone(f: Finder, node: Node): (r: Finder)
    ensures node.id !in r.dialing
    ensures forall x :: x != node.id ==> (x in r.dialing <==> x in f.dialing)
    ensures r.(dialing := f.dialing) == f
  {
    f.(dialing := f.dialing - {node.id})
  }

  /** `total`: connected non-SBP peers plus attempts in flight. */
  function Total(f: Finder, count: nat): int {
    count + |f.dialing|
  }

  /** An attempt that starts and then completes leaves the finder as it was. */
  lemma DialThenDone(f: Finder, node: Node)
    requires node.id !in f.dialing
    ensures DoDialDone(Dial(f, node).f, node) == f
  {
  }

  /** `total` counts attempts in flight: starting a new one raises it by one,
      and the completion of one in flight lowers it by one. */
  lemma TotalCountsAttempts(f: Finder, node: Node, count: nat)
    ensures node.id !in f.dialing ==> Total(Dial(f, node).f, count) == Total(f, count) + 1
    ensures node.id in f.dialing ==> Total(Dial(f, node).f, count) == Total(f, count)
    ensures node.id in f.dialing ==> Total(DoDialDone(f, node), count) == Total(f, count) - 1
    ensures node.id !in f.dialing ==> Total(DoDialDone(f, node), count) == Total(f, count)
  {
    if node.id in f.dialing {
      assert f.dialing == (f.dialing - {node.id}) + {node.id};
    } else {
      assert f.dialing - {node.id} == f.dialing;
    }
  }

  // ---------------------------------------------------------------------------
  // Discovery stream

  /** `receiveNode`: a node whose extension parses is recorded as the target of
      its owner address; independently, it is dialed when the total is below
      the ceiling. */
  function ReceiveNode(c: Crypto.Suite, f: Finder, node: Node, count: nat): (r: DialStep)
    ensures ParseNodeExt(c, node).Some? ==> r.f.targets == f.targets[ParseNodeExt(c, node).value := node]
    ensures ParseNodeExt(c, node).None? ==> r.f.targets == f.targets
    ensures Total(f, count) < f.maxPeers ==> r.f.dialing == f.dialing + {node.id}
    ensures Total(f, count) >= f.maxPeers ==> r.f.dialing == f.dialing && r.started == []
    ensures r.started == [] || r.started == [node]
    ensures Total(f, count) < f.maxPeers ==> (r.started == [node] <==> node.id !in f.dialing)
    ensures Ids(r.started) == r.f.dialing - f.dialing && DistinctIds(r.started)
    ensures r.f.(targets := f.targets, dialing := f.dialing) == f
    ensures Total(r.f, count) <= if Total(f, count) < f.maxPeers then f.maxPeers else Total(f, count)
  {
    var f1 := match ParseNodeExt(c, node)
      case Some(addr) => f.(targets := f.targets[addr := node])
      case None => f;
    if Total(f1, count) < f1.maxPeers then
      var d := Dial(f1, node);
      assert |d.f.dialing| <= |f.dialing| + 1 by {
        if node.id !in f.dialing {
          assert d.f.dialing == f.dialing + {node.id};
        }
      }
      d
    else DialStep(f1, [])
  }

  // ---------------------------------------------------------------------------
  // Producer events

  /** The state and effects of one `receiveProducers` call. `superior` lists the
      IDs of connected peers marked superior; `notified` is the value each
      registered observer receives. */
  datatype ProducersStep = ProducersStep(f: Finder, started: seq<Node>, superior: seq<NodeId>, notified: map<int, bool>)

  datatype ScanStep = ScanStep(f: Finder, started: seq<Node>, superior: seq<NodeId>)

  /** One iteration of the loop over the event's addresses: stamp `a` in
      `sbps`; if `a` owns a target, mark it superior when connected, or dial it
      when this node is an SBP. */
  function ScanOne(f: Finder, a: Address, now: int, connected: NodeId -> bool): (r: ScanStep)
    ensures r.f.(sbps := f.sbps, dialing := f.dialing) == f
    ensures r.f.sbps == f.sbps[a := now]
    ensures r.f.dialing == f.dialing + Ids(r.started)
    ensures r.started != [] ==>
      f.selfIsSBP && a in f.targets && r.started == [f.targets[a]] && !connected(f.targets[a].id)
    ensures r.superior != [] ==>
      a in f.targets && r.superior == [f.targets[a].id] && connected(f.targets[a].id)
    ensures a in f.targets && connected(f.targets[a].id) ==> r.superior == [f.targets[a].id]
    ensures a in f.targets && !connected(f.targets[a].id) && f.selfIsSBP ==> f.targets[a].id in r.f.dialing
    ensures Ids(r.started) == r.f.dialing - f.dialing && DistinctIds(r.started)
  {
    var f2 := f.(sbps := f.sbps[a := now]);
    if a in f2.targets then
      var node := f2.targets[a];
      if connected(node.id) then ScanStep(f2, [], [node.id])
      else if f2.selfIsSBP then
        var d := Dial(f2, node);
        ScanStep(d.f, d.started, [])
      else ScanStep(f2, [], [])
    else ScanStep(f2, [], [])
  }

  /** The loop over the event's addresses, with `selfIsSBP` already updated:
      every event address is stamped with `now`, other stamps are kept, and
      only a producer starts attempts. */
  function ScanProducers(f: Finder, addrs: seq<Address>, now: int, connected: NodeId -> bool): (r: ScanStep)
    ensures r.f.(sbps := f.sbps, dialing := f.dialing) == f
    ensures r.f.sbps.Keys == f.sbps.Keys + set a | a in addrs
    ensures forall a :: a in addrs ==> r.f.sbps[a] == now
    ensures forall a :: a in f.sbps && a !in addrs ==> r.f.sbps[a] == f.sbps[a]
    ensures r.f.dialing == f.dialing + Ids(r.started)
    ensures Ids(r.started) == r.f.dialing - f.dialing && DistinctIds(r.started)
    ensures !f.selfIsSBP ==> r.started == []
  {
    if |addrs| == 0 then ScanStep(f, [], [])
    else
      var s := ScanProducers(f, addrs[..|addrs| - 1], now, connected);
      var a := addrs[|addrs| - 1];
      assert addrs == addrs[..|addrs| - 1] + [a];
      var o := ScanOne(s.f, a, now, connected);
      IdsAppend(s.started, o.started);
      DistinctAppend(s.started, o.started);
      ScanStep(o.f, s.started + o.started, s.superior + o.superior)
  }

  /** Attempts start only for unconnected targets of event addresses. */
  lemma {:induction false} ScanStartsOnlyTargets(f: Finder, addrs: seq<Address>, now: int, connected: NodeId -> bool)
    ensures var r := ScanProducers(f, addrs, now, connected);
      forall n :: n in r.started ==>
        !connected(n.id) && exists a :: a in addrs && a in f.targets && f.targets[a] == n
  {
    if |addrs| > 0 {
      var prefix := addrs[..|addrs| - 1];
      ScanStartsOnlyTargets(f, prefix, now, connected);
      var s := ScanProducers(f, prefix, now, connected);
      assert s.f.targets == f.targets;
      forall n | n in s.started ensures exists b :: b in addrs && b in f.targets && f.targets[b] == n {
        var b :| b in prefix && b in f.targets && f.targets[b] == n;
        assert b in addrs;
      }
    }
  }

  /** Only connected targets of event addresses are marked superior. */
  lemma {:induction false} ScanMarksOnlyTargets(f: Finder, addrs: seq<Address>, now: int, connected: NodeId -> bool)
    ensures var r := ScanProducers(f, addrs, now, connected);
      forall id :: id in r.superior ==>
        connected(id) && exists a :: a in addrs && a in f.targets && f.targets[a].id == id
  {
    if |addrs| > 0 {
      var prefix := addrs[..|addrs| - 1];
      ScanMarksOnlyTargets(f, prefix, now, connected);
      var s := ScanProducers(f, prefix, now, connected);
      assert s.f.targets == f.targets;
      forall id | id in s.superior ensures exists b :: b in addrs && b in f.targets && f.targets[b].id == id {
        var b :| b in prefix && b in f.targets && f.targets[b].id == id;
        assert b in addrs;
      }
    }
  }

  /** Every connected target of an event address is marked superior, and every
      unconnected one is being dialed when this node is a producer. */
  lemma {:induction false} ScanCoversTargets(f: Finder, addrs: seq<Address>, now: int, connected: NodeId -> bool)
    ensures var r := ScanProducers(f, addrs, now, connected);
      && (forall a :: a in addrs && a in f.targets && connected(f.targets[a].id) ==>
            f.targets[a].id in r.superior)
      && (forall a :: a in addrs && a in f.targets && !connected(f.targets[a].id) && f.selfIsSBP ==>
            f.targets[a].id in r.f.dialing)
  {
    if |addrs| > 0 {
      var prefix := addrs[..|addrs| - 1];
      var last := addrs[|addrs| - 1];
      ScanCoversTargets(f, prefix, now, connected);
      var s := ScanProducers(f, prefix, now, connected);
      var o := ScanOne(s.f, last, now, connected);
      assert s.f.targets == f.targets && s.f.selfIsSBP == f.selfIsSBP;
      forall a | a in addrs
        ensures a in f.targets && connected(f.targets[a].id) ==> f.targets[a].id in s.superior + o.superior
        ensures a in f.targets && !connected(f.targets[a].id) && f.selfIsSBP ==> f.targets[a].id in o.f.dialing
      {
        if a != last {
          assert a in prefix by {
            var i :| 0 <= i < |addrs| && addrs[i] == a;
            assert i < |addrs| - 1;
            assert prefix[i] == a;
          }
        }
      }
    }
  }

  /** `notify`: every registered observer receives the current SBP status. */
  function Notify(f: Finder): (r: map<int, bool>)
    ensures r.Keys == f.observers.Keys
    ensures forall id :: id in r ==> r[id] == f.selfIsSBP
  {
    map id | id in f.observers :: f.selfIsSBP
  }
  /** A fresh subscriber is told the current status; once unsubscribed it
      is not told anything. */
  lemma SubscribedNotified(f: Finder, obs: Observer)
    ensures var st := Sub(f, obs);
      && st.id in Notify(st.f) && Notify(st.f)[st.id] == f.selfIsSBP
      && st.id !in Notify(UnSub(st.f, st.id))
  {
  }


  /** `receiveProducers`: this node is an SBP exactly when its address is among
      the event's; every event address is stamped with `now` and no address is
      ever removed from `sbps`; matching targets are marked or dialed; finally
      every observer is told the new status. */
  function ReceiveProducers(f: Finder, addrs: seq<Address>, now: int, connected: NodeId -> bool): (r: ProducersStep)
    ensures r.f.selfIsSBP <==> f.self in addrs
    ensures r.f.targets == f.targets && r.f.observers == f.observers
    ensures f.sbps.Keys <= r.f.sbps.Keys
    ensures forall a :: a in addrs ==> a in r.f.sbps && r.f.sbps[a] == now
    ensures forall a :: a in f.sbps && a !in addrs ==> r.f.sbps[a] == f.sbps[a]
    ensures r.f.(selfIsSBP := f.selfIsSBP, sbps := f.sbps, dialing := f.dialing) == f
    ensures Ids(r.started) == r.f.dialing - f.dialing && DistinctIds(r.started)
    ensures f.self !in addrs ==> r.started == []
    ensures r.notified.Keys == f.observers.Keys
    ensures forall id :: id in r.notified ==> (r.notified[id] <==> f.self in addrs)
  {
    var f1 := f.(selfIsSBP := f.self in addrs);
    var s := ScanProducers(f1, addrs, now, connected);
    ProducersStep(s.f, s.started, s.superior, Notify(s.f))
  }

  /** `isSBP`: membership of the address in `sbps`; the timestamp is not consulted. */
  predicate IsSBP(f: Finder, addr: Address) {
    addr in f.sbps
  }

  /** After `start` read the producers, each of them is an SBP, and every
      earlier SBP still is. */
  lemma StartAnnouncesProducers(f: Finder, producers: Option<seq<Address>>, now: int, addr: Address)
    requires IsSBP(f, addr) || (producers.Some? && addr in producers.value)
    ensures IsSBP(Start(f, producers, now), addr)
  {
  }

  /** Once an address has been announced as a producer it stays an SBP through
      every later producer event. */
  lemma SbpsNeverPruned(f: Finder, addrs: seq<Address>, now: int, connected: NodeId -> bool, addr: Address)
    requires IsSBP(f, addr) || addr in addrs
    ensures IsSBP(ReceiveProducers(f, addrs, now, connected).f, addr)
  {
  }

  // ---------------------------------------------------------------------------
  // Reconciliation loop

  datatype TickStep = TickStep(f: Finder, started: seq<Node>, requested: Option<int>)

  /** The targets' nodes in the order `order` lists their addresses. */
  function TargetNodes(targets: map<Address, Node>, order: seq<Address>): (r: seq<Node>)
    ensures forall n :: n in r ==> exists a :: a in targets && targets[a] == n
    ensures forall a :: a in targets && a in order ==> targets[a] in r
  {
    if |order| == 0 then []
    else if order[0] in targets then [targets[order[0]]] + TargetNodes(targets, order[1..])
    else TargetNodes(targets, order[1..])
  }

  /** Ranging over the targets dials every target's ID. */
  function DialTargets(f: Finder, order: seq<Address>): (r: DialStep)
    requires forall a :: a in f.targets ==> a in order
    ensures Grows(f, r)
    ensures r.f.dialing == f.dialing + TargetIds(f)
  {
    TargetNodesIds(f, order);
    DialAll(f, TargetNodes(f.targets, order))
  }

  lemma TargetNodesIds(f: Finder, order: seq<Address>)
    requires forall a :: a in f.targets ==> a in order
    ensures Ids(TargetNodes(f.targets, order)) == TargetIds(f)
  {
  }

  /** What `dialing` holds after the first half of a tick: unchanged at or above
      the ceiling, otherwise joined by every static node and, when this node is
      an SBP, every target. */
  function FirstPhaseDialing(f: Finder, count: nat): set<NodeId> {
    if Total(f, count) < f.maxPeers then
      f.dialing + Ids(f.staticNodes) + (if f.selfIsSBP then TargetIds(f) else {})
    else f.dialing
  }

  /** The first half of a tick: below the ceiling, dial the static nodes, and
      the targets as well when this node is an SBP. */
  function FirstPhase(f: Finder, count: nat, order: seq<Address>): (r: DialStep)
    requires forall a :: a in f.targets ==> a in order
    ensures Grows(f, r)
    ensures r.f.dialing == FirstPhaseDialing(f, count)
  {
    if Total(f, count) < f.maxPeers then
      var a := DialAll(f, f.staticNodes);
      if f.selfIsSBP then
        var b := DialTargets(a.f, order);
        GrowsThen(f, a, b);
        DialStep(b.f, a.started + b.started)
      else a
    else DialStep(f, [])
  }

  /** The second half of a tick: if the total is below the ceiling, ask the
      resolver for twice the free slots and dial every node it returns. */
  function SecondPhase(f: Finder, count: nat, getNodes: int -> seq<Node>): (r: TickStep)
    ensures Grows(f, DialStep(r.f, r.started))
    ensures r.requested.Some? <==> Total(f, count) < f.maxPeers
    ensures r.requested.Some? ==>
      && r.requested.value == 2 * (f.maxPeers - Total(f, count))
      && r.f.dialing == f.dialing + Ids(getNodes(r.requested.value))
    ensures r.requested.None? ==> r.f == f && r.started == []
  {
    if Total(f, count) < f.maxPeers then
      var n := (f.maxPeers - Total(f, count)) * 2;
      var b := DialAll(f, getNodes(n));
      TickStep(b.f, b.started, Some(n))
    else TickStep(f, [], None)
  }

  /** One tick of `loop`: the first half, then the second half on the
      recomputed total. `order` is the (unspecified) order in which Go ranges
      over `targets`. Every attempt the tick starts is for an ID not dialing
      before, and no ID is started twice. */
  function Tick(f: Finder, count: nat, order: seq<Address>, getNodes: int -> seq<Node>): (r: TickStep)
    requires forall a :: a in f.targets ==> a in order
    ensures Grows(f, DialStep(r.f, r.started))
    ensures
      var d1 := FirstPhaseDialing(f, count);
      && (r.requested.Some? <==> count + |d1| < f.maxPeers)
      && (r.requested.Some? ==>
           && r.requested.value == 2 * (f.maxPeers - (count + |d1|))
           && r.f.dialing == d1 + Ids(getNodes(r.requested.value)))
      && (r.requested.None? ==> r.f.dialing == d1)
  {
    var s1 := FirstPhase(f, count, order);
    var s2 := SecondPhase(s1.f, count, getNodes);
    GrowsThen(f, s1, DialStep(s2.f, s2.started));
    TickStep(s2.f, s1.started + s2.started, s2.requested)
  }

  // ---------------------------------------------------------------------------
  // Observers, start and stop

  datatype SubStep = SubStep(f: Finder, id: int)

  /** `sub`: the observer is registered under the current counter, which is
      then incremented; the handed-out id was not in use. */
  function Sub(f: Finder, obs: Observer): (r: SubStep)
    ensures r.id == f.nextSubId && r.f.nextSubId == f.nextSubId + 1
    ensures r.f.observers == f.observers[r.id := obs]
    ensures Valid(f) ==> Valid(r.f) && r.id !in f.observers
    ensures r.f.(observers := f.observers, nextSubId := f.nextSubId) == f
  {
    SubStep(f.(observers := f.observers[f.nextSubId := obs], nextSubId := f.nextSubId + 1), f.nextSubId)
  }

  /** `unSub`: only that id is removed. */
  function UnSub(f: Finder, id: int): (r: Finder)
    ensures id !in r.observers
    ensures forall k :: k != id && k in f.observers ==> k in r.observers && r.observers[k] == f.observers[k]
    ensures r.observers.Keys <= f.observers.Keys
    ensures r.(observers := f.observers) == f
    ensures Valid(f) ==> Valid(r)
  {
    f.(observers := f.observers - {id})
  }

  /** Successive subscriptions receive strictly increasing, hence distinct, ids. */
  lemma SubIdsIncrease(f: Finder, o1: Observer, o2: Observer)
    requires Valid(f)
    ensures
      var s1 := Sub(f, o1);
      var s2 := Sub(s1.f, o2);
      s1.id < s2.id && s2.id !in s1.f.observers
  {
  }

  /** `stop`: closes `term` once; a second call is a no-op. Before `start` the
      channel is nil and closing it panics, which is reported as `None`. */
  function Stop(f: Finder): (r: Option<Finder>)
    ensures f.term == Unmade <==> r.None?
    ensures r.Some? ==> r.value == f.(term := Closed)
  {
    match f.term
    case Unmade => None
    case Open => Some(f.(term := Closed))
    case Closed => Some(f)
  }

  lemma StopIdempotent(f: Finder)
    requires f.term != Unmade
    ensures Stop(Stop(f).value) == Stop(f)
  {
  }

  /** `start`: makes `term`; when the producer snapshot could be read (`Some`),
      stamps every producer address with `now` and sets `selfIsSBP` if this
      node is among them. A failed read is swallowed. */
  function Start(f: Finder, producers: Option<seq<Address>>, now: int): (r: Finder)
    ensures r.term == Open
    ensures producers.None? ==> r == f.(term := Open)
    ensures producers.Some? ==>
      && r.sbps.Keys == f.sbps.Keys + set a | a in producers.value
      && (forall a :: a in producers.value ==> a in r.sbps && r.sbps[a] == now)
      && (forall a :: a in f.sbps && a !in producers.value ==> a in r.sbps && r.sbps[a] == f.sbps[a])
      && (r.selfIsSBP <==> f.selfIsSBP || f.self in producers.value)
      && r.(sbps := f.sbps, selfIsSBP := f.selfIsSBP, term := f.term) == f
  {
    match producers
    case None => f.(term := Open)
    case Some(ds) =>
      f.(term := Open,
         sbps := f.sbps + map a | a in ds :: now,
         selfIsSBP := f.selfIsSBP || f.self in ds)
  }

  /** `start` makes the channel, so a later `stop` closes it instead of
      panicking. */
  lemma StartThenStop(f: Finder, producers: Option<seq<Address>>, now: int)
    ensures Stop(Start(f, producers, now)).Some?
    ensures Stop(Start(f, producers, now)).value.term == Closed
  {
  }

  /** Parses the static-node strings in order, failing on the first bad one. */
  function ParseStatic(strs: seq<string>, parse: string -> Option<Node>): (r: Result<seq<Node>, string>)
    ensures r.Success? <==> forall i :: 0 <= i < |strs| ==> parse(strs[i]).Some?
    ensures r.Success? ==> |r.value| == |strs| && forall i :: 0 <= i < |strs| ==> r.value[i] == parse(strs[i]).value
    ensures r.Failure? ==> exists i :: (0 <= i < |strs| && strs[i] == r.error && parse(strs[i]).None?
      && forall j :: 0 <= j < i ==> parse(strs[j]).Some?)
  {
    if |strs| == 0 then Success([])
    else
      match parse(strs[0])
      case None => Failure(strs[0])
      case Some(n) =>
        match ParseStatic(strs[1..], parse)
        case Failure(e) =>
          var i :| 0 <= i < |strs[1..]| && strs[1..][i] == e && parse(strs[1..][i]).None?
            && forall j :: 0 <= j < i ==> parse(strs[1..][j]).Some?;
          assert strs[i + 1] == e;
          Failure(e)
        case Success(rest) => Success([n] + rest)
  }

  /** `newFinder`: empty bookkeeping and the parsed static nodes, or the first
      static-node string that does not parse. */
  function NewFinder(self: Address, maxPeers: int, staticStrs: seq<string>, parse: string -> Option<Node>): (r: Result<Finder, string>)
    ensures r.Success? <==> forall i :: 0 <= i < |staticStrs| ==> parse(staticStrs[i]).Some?
    ensures r.Success? ==>
      && Valid(r.value)
      && r.value.self == self && r.value.maxPeers == maxPeers
      && r.value.targets == map[] && r.value.dialing == {} && r.value.sbps == map[]
      && r.value.observers == map[] && !r.value.selfIsSBP && r.value.term == Unmade
      && |r.value.staticNodes| == |staticStrs|
      && forall i :: 0 <= i < |staticStrs| ==> r.value.staticNodes[i] == parse(staticStrs[i]).value
  {
    match ParseStatic(staticStrs, parse)
    case Failure(e) => Failure(e)
    case Success(nodes) =>
      Success(Finder(self, false, map[], maxPeers, nodes, {}, map[], 0, map[], Unmade))
  }
}

=== FILE: grouping.dfy ===
/** Grouping of keyed entries in arrival order, as the event fan-out builds its
    per-address message lists with `m[k] = append(m[k], v)`. */
module Grouping {
  import opened Seqs

  function Keys<K, V>(entries: seq<(K, V)>): set<K> {
    set i | 0 <= i < |entries| :: entries[i].0
  }

  function Values<K, V>(entries: seq<(K, V)>): (vs: seq<V>)
    ensures |vs| == |entries|
    ensures forall i :: 0 <= i < |entries| ==> vs[i] == entries[i].1
  {
    seq(|entries|, i requires 0 <= i < |entries| => entries[i].1)
  }

  /** The reference meaning of a group: the values filed under `k`, in order. */
  function Select<K(==), V>(entries: seq<(K, V)>, k: K): seq<V> {
    Values(Filter(entries, (e: (K, V)) => e.0 == k))
  }

  /** The append loop: each entry, in order, is appended to the list of its key,
      which is created empty on first use. */
  function Group<K(==), V>(entries: seq<(K, V)>): map<K, seq<V>> {
    if |entries| == 0 then map[]
    else
      var gp := Group(entries[..|entries| - 1]);
      var e := entries[|entries| - 1];
      gp[e.0 := (if e.0 in gp then gp[e.0] else []) + [e.1]]
  }

  /** A key has a group exactly when some entry carries it, and its group holds
      the values of those entries in arrival order. */
  lemma {:induction false} GroupSelect<K, V>(entries: seq<(K, V)>, k: K)
    ensures k in Group(entries) <==> k in Keys(entries)
    ensures k in Group(entries) ==> Group(entries)[k] == Select(entries, k)
  {
    if |entries| > 0 {
      var prefix := entries[..|entries| - 1];
      var e := entries[|entries| - 1];
      GroupSelect(prefix, k);
      assert entries == prefix + [e];
      assert Keys(entries) == Keys(prefix) + {e.0};
      SelectSnoc(prefix, e, k);
      if k !in Keys(prefix) {
        SelectAbsent(prefix, k);
      }
    }
  }

  lemma SelectSnoc<K, V>(prefix: seq<(K, V)>, e: (K, V), k: K)
    ensures Select(prefix + [e], k) == Select(prefix, k) + (if e.0 == k then [e.1] else [])
  {
    var p := (x: (K, V)) => x.0 == k;
    var s := prefix + [e];
    assert s[..|s| - 1] == prefix;
    var fp := Filter(prefix, p);
    var tail := if p(e) then [e] else [];
    assert Filter(s, p) == fp + tail;
    assert Values(fp + tail) == Values(fp) + Values(tail);
  }

  lemma SelectAbsent<K, V>(entries: seq<(K, V)>, k: K)
    requires k !in Keys(entries)
    ensures Select(entries, k) == []
  {
    var p := (x: (K, V)) => x.0 == k;
    var f := Filter(entries, p);
    if |f| > 0 {
      FilterMembers(entries, p, f[0]);
    }
  }
}

=== FILE: protocols.dfy ===
/** The discovery wire codec: the signed, checksummed envelope
      version (1) | code (1) | checksum (32) | signature (64) | payload
    around the four discovery messages, the per-variant copy of protobuf
    fields into fixed-size arrays, and the reaction of each message kind.

    Two versions of the receive path are given. `UnPacketAsWritten` and
    `DecodeAsWritten` follow the code line for line, including its panics and
    its 23-byte re-hash; `UnPacket` and `Decode` are the evidently intended
    behaviour, and the round-trip and tamper properties are proved of them. */
module Protocols {
  import opened Wrappers
  import opened Bytes
  import Crypto

  const Version: byte := 1

  const PingCode: byte := 1
  const PongCode: byte := 2
  const FindNodeCode: byte := 3
  const NeighborsCode: byte := 4

  const MaxPacketLength: nat := 1400
  const MaxPayloadLength: nat := 1200
  const MaxNeighborsNodes: nat := 10

  /** Length of `Hash`, of `NodeID`, and the digest size `composePacket` uses. */
  const HashLen: nat := 32
  /** The digest size the receive path re-hashes with. */
  const ReHashLen: nat := 23
  /** version + code + checksum + signature. */
  const HeaderLen: nat := 98

  datatype Error =
    | UnmatchedVersion
    | WrongHash
    | InvalidSig
    | UnknownCode(code: byte)
    | BadPayload
    | ShortPacket

  datatype Kind = PingKind | PongKind | FindNodeKind | NeighborsKind

  /** A table entry as carried in `Neighbors` and inserted by `Ping`. */
  datatype Node = Node(id: Bytes, ip: Bytes, port: nat)

  /** The four messages; every `id` and `ping`/`target` is a 32-byte array in Go. */
  datatype Message =
    | Ping(id: Bytes)
    | Pong(id: Bytes, ping: Bytes)
    | FindNode(id: Bytes, target: Bytes)
    | Neighbors(id: Bytes, nodes: seq<Node>)

  /** The protobuf records, whose byte fields have no fixed length. */
  datatype PbMsg =
    | PbPing(pbId: Bytes)
    | PbPong(pbId: Bytes, pbPing: Bytes)
    | PbFindNode(pbId: Bytes, pbTarget: Bytes)
    | PbNeighbors(pbId: Bytes, pbNodes: seq<Node>)

  /** `proto.Marshal` and `proto.Unmarshal` into a record of the given kind. */
  datatype Proto = Proto(marshal: PbMsg -> Bytes, unmarshal: (Kind, Bytes) -> Option<PbMsg>)

  /** The one fact assumed of protobuf: unmarshal inverts marshal, and only
      yields records of the kind asked for. */
  ghost predicate ProtoSound(p: Proto) {
    && (forall m :: p.unmarshal(PbKind(m), p.marshal(m)) == Some(m))
    && (forall k, b :: p.unmarshal(k, b).Some? ==> PbKind(p.unmarshal(k, b).value) == k)
  }

  function KindOf(m: Message): Kind {
    match m
    case Ping(_) => PingKind
    case Pong(_, _) => PongKind
    case FindNode(_, _) => FindNodeKind
    case Neighbors(_, _) => NeighborsKind
  }

  function PbKind(m: PbMsg): Kind {
    match m
    case PbPing(_) => PingKind
    case PbPong(_, _) => PongKind
    case PbFindNode(_, _) => FindNodeKind
    case PbNeighbors(_, _) => NeighborsKind
  }

  /** The code each message kind is sent under. */
  function CodeOf(k: Kind): byte {
    match k
    case PingKind => PingCode
    case PongKind => PongCode
    case FindNodeKind => FindNodeCode
    case NeighborsKind => NeighborsCode
  }

  /** The dispatch table of `decode`: codes 1 to 4 and nothing else. */
  function KindOfCode(code: byte): (k: Option<Kind>)
    ensures k.Some? <==> 1 <= code <= 4
    ensures k.Some? ==> CodeOf(k.value) == code
  {
    if code == PingCode then Some(PingKind)
    else if code == PongCode then Some(PongKind)
    else if code == FindNodeCode then Some(FindNodeKind)
    else if code == NeighborsCode then Some(NeighborsKind)
    else None
  }

  /** The code table is a bijection between the four kinds and codes 1 to 4. */
  lemma CodeTable(k: Kind, code: byte)
    ensures KindOfCode(code) == Some(k) <==> CodeOf(k) == code
  {
  }

  /** Every fixed-size field of `m` has the length of its Go array. */
  predicate WellSized(m: Message) {
    && |m.id| == HashLen
    && (m.Pong? ==> |m.ping| == HashLen)
    && (m.FindNode? ==> |m.target| == HashLen)
  }

  /** `Serialize` before marshalling: the arrays become protobuf byte fields. */
  function ToPb(m: Message): (pb: PbMsg)
    ensures PbKind(pb) == KindOf(m)
  {
    match m
    case Ping(id) => PbPing(id)
    case Pong(id, ping) => PbPong(id, ping)
    case FindNode(id, target) => PbFindNode(id, target)
    case Neighbors(id, nodes) => PbNeighbors(id, nodes)
  }

  /** `Deserialize` after a successful unmarshal: each byte field is copied into
      a zero-valued 32-byte array, truncating or zero-padding it. */
  function FromPb(pb: PbMsg): (m: Message)
    ensures KindOf(m) == PbKind(pb)
    ensures WellSized(m)
  {
    match pb
    case PbPing(id) => Ping(CopyFixed(HashLen, id))
    case PbPong(id, ping) => Pong(CopyFixed(HashLen, id), CopyFixed(HashLen, ping))
    case PbFindNode(id, target) => FindNode(CopyFixed(HashLen, id), CopyFixed(HashLen, target))
    case PbNeighbors(id, nodes) => Neighbors(CopyFixed(HashLen, id), nodes)
  }

  /** The zero value `new(T)` of each kind, which `Deserialize` leaves
      untouched when unmarshalling fails. */
  function ZeroMessage(k: Kind): (m: Message)
    ensures KindOf(m) == k && WellSized(m)
    ensures m.id == Zeros(HashLen)
  {
    match k
    case PingKind => Ping(Zeros(HashLen))
    case PongKind => Pong(Zeros(HashLen), Zeros(HashLen))
    case FindNodeKind => FindNode(Zeros(HashLen), Zeros(HashLen))
    case NeighborsKind => Neighbors(Zeros(HashLen), [])
  }

  /** The copy into fixed arrays loses nothing from a well-sized message. */
  lemma FromPbToPb(m: Message)
    requires WellSized(m)
    ensures FromPb(ToPb(m)) == m
  {
    CopyFixedExact(HashLen, m.id);
    if m.Pong? {
      CopyFixedExact(HashLen, m.ping);
    }
    if m.FindNode? {
      CopyFixedExact(HashLen, m.target);
    }
  }

  function Serialize(p: Proto, m: Message): (b: Bytes)
    ensures ProtoSound(p) ==> p.unmarshal(KindOf(m), b) == Some(ToPb(m))
  {
    p.marshal(ToPb(m))
  }

  // ---------------------------------------------------------------------------
  // Sending

  datatype Packet = Packet(data: Bytes, hash: Bytes)

  /** `composePacket`: sign the payload, checksum signature and payload with a
      32-byte digest, and lay the envelope out. The returned hash is the
      checksum copied into a `Hash` array. */
  function Compose(c: Crypto.Suite, priv: Bytes, code: byte, payload: Bytes): (r: Packet)
    ensures Crypto.Sound(c) ==>
      && |r.data| == HeaderLen + |payload|
      && r.data[0] == Version
      && r.data[1] == code
      && r.data[2..HashLen + 2] == r.hash
      && r.data[HashLen + 2..HeaderLen] == c.sign(priv, payload)
      && r.data[HeaderLen..] == payload
      && r.hash == c.hash(HashLen, r.data[HashLen + 2..])
  {
    var sig := c.sign(priv, payload);
    var checksum := c.hash(HashLen, sig + payload);
    var data := [Version, code] + checksum + sig + payload;
    assert Crypto.Sound(c) ==> data[HashLen + 2..] == sig + payload;
    Packet(data, CopyFixed(HashLen, checksum))
  }

  /** `Pack` of any message: serialize, then compose under the message's code. */
  function Pack(c: Crypto.Suite, p: Proto, priv: Bytes, m: Message): (r: Packet)
    ensures Crypto.Sound(c) ==>
      && |r.data| == HeaderLen + |Serialize(p, m)|
      && r.data[..2] == [Version, CodeOf(KindOf(m))]
      && r.data[2..HashLen + 2] == r.hash
      && r.data[HashLen + 2..HeaderLen] == c.sign(priv, Serialize(p, m))
      && r.data[HeaderLen..] == Serialize(p, m)
      && r.hash == c.hash(HashLen, r.data[HashLen + 2..])
  {
    Compose(c, priv, CodeOf(KindOf(m)), Serialize(p, m))
  }

  // ---------------------------------------------------------------------------
  // Decoding a payload

  datatype DecodeOutcome = DecodePanic | Decoded(msg: Message)

  /** `decode` as written: an unknown code leaves the interface nil and the
      following `Deserialize` call panics; an unmarshal error is ignored and the
      zero-valued message is returned with a nil error. */
  function DecodeAsWritten(p: Proto, code: byte, payload: Bytes): (r: DecodeOutcome)
    ensures r.DecodePanic? <==> KindOfCode(code).None?
    ensures r.Decoded? ==> WellSized(r.msg)
    ensures ProtoSound(p) && r.Decoded? ==> CodeOf(KindOf(r.msg)) == code
  {
    match KindOfCode(code)
    case None => DecodePanic
    case Some(k) =>
      match p.unmarshal(k, payload)
      case None => Decoded(ZeroMessage(k))
      case Some(pb) => Decoded(FromPb(pb))
  }

  /** `decode` with its two errors reported: the unknown code, and a payload the
      protobuf decoder rejects. */
  function Decode(p: Proto, code: byte, payload: Bytes): (r: Result<Message, Error>)
    ensures KindOfCode(code).None? <==> r == Failure(UnknownCode(code))
    ensures r.Success? ==> WellSized(r.value)
    ensures ProtoSound(p) && r.Success? ==> CodeOf(KindOf(r.value)) == code
    ensures r.Success? <==> KindOfCode(code).Some? && p.unmarshal(KindOfCode(code).value, payload).Some?
  {
    match KindOfCode(code)
    case None => Failure(UnknownCode(code))
    case Some(k) =>
      match p.unmarshal(k, payload)
      case None => Failure(BadPayload)
      case Some(pb) => Success(FromPb(pb))
  }

  /** Where `decode` does not fail, the written and the intended versions agree. */
  lemma DecodeAgrees(p: Proto, code: byte, payload: Bytes)
    requires Decode(p, code, payload).Success?
    ensures DecodeAsWritten(p, code, payload) == Decoded(Decode(p, code, payload).value)
  {
  }

  /** Decoding the serialization of a well-sized message under its own code
      gives the message back. */
  lemma DecodeSerialize(p: Proto, m: Message)
    requires ProtoSound(p)
    requires WellSized(m)
    ensures Decode(p, CodeOf(KindOf(m)), Serialize(p, m)) == Success(m)
  {
    CodeTable(KindOf(m), CodeOf(KindOf(m)));
    assert p.unmarshal(PbKind(ToPb(m)), p.marshal(ToPb(m))) == Some(ToPb(m));
    FromPbToPb(m);
  }

  // ---------------------------------------------------------------------------
  // Receiving

  datatype Received = Received(msg: Message, hash: Bytes)

  datatype Outcome = Panic | Rejected(err: Error) | Accepted(msg: Message, hash: Bytes)

  /** `unPacket` as written: index 0 is read before any length check, the slices
      up to byte 98 are taken unchecked, and the checksum is re-computed with a
      23-byte digest and compared with the 32-byte embedded one. */
  function UnPacketAsWritten(c: Crypto.Suite, p: Proto, packet: Bytes): (r: Outcome)
    ensures |packet| > 0 && packet[0] != Version ==> r == Rejected(UnmatchedVersion)
    ensures r.Panic? ==> |packet| < HeaderLen || KindOfCode(packet[1]).None?
    ensures |packet| > 0 && packet[0] == Version && |packet| < HeaderLen ==> r == Panic
    ensures Crypto.Sound(c) && |packet| >= HeaderLen && packet[0] == Version ==> r == Rejected(WrongHash)
  {
    if |packet| == 0 then Panic
    else if packet[0] != Version then Rejected(UnmatchedVersion)
    else if |packet| < HeaderLen then Panic
    else
      var pktHash := packet[2..HashLen + 2];
      var pktSig := packet[HashLen + 2..HeaderLen];
      var payload := packet[HeaderLen..];
      if c.hash(ReHashLen, packet[HashLen + 2..]) != pktHash then Rejected(WrongHash)
      else
        match DecodeAsWritten(p, packet[1], payload)
        case DecodePanic => Panic
        case Decoded(m) =>
          if c.verifySig(m.id, pktSig, payload) then Accepted(m, pktHash)
          else Rejected(InvalidSig)
  }

  /** `unPacket` as intended: a short packet is an error rather than a panic, the
      checksum is re-computed with the same 32-byte digest that composed it, and
      decode errors are reported. The checks run in the source's order:
      version, checksum, decode, signature. */
  function UnPacket(c: Crypto.Suite, p: Proto, packet: Bytes): (r: Result<Received, Error>)
    ensures |packet| > 0 && packet[0] != Version ==> r == Failure(UnmatchedVersion)
    ensures (|packet| == 0 || (packet[0] == Version && |packet| < HeaderLen)) ==> r == Failure(ShortPacket)
    ensures r.Success? ==>
      && |packet| >= HeaderLen
      && packet[0] == Version
      && r.value.hash == packet[2..HashLen + 2]
      && r.value.hash == c.hash(HashLen, packet[HashLen + 2..])
      && Decode(p, packet[1], packet[HeaderLen..]) == Success(r.value.msg)
      && c.verifySig(r.value.msg.id, packet[HashLen + 2..HeaderLen], packet[HeaderLen..])
    ensures (&& |packet| >= HeaderLen && packet[0] == Version
             && c.hash(HashLen, packet[HashLen + 2..]) != packet[2..HashLen + 2])
            ==> r == Failure(WrongHash)
    ensures (&& |packet| >= HeaderLen && packet[0] == Version
             && c.hash(HashLen, packet[HashLen + 2..]) == packet[2..HashLen + 2]
             && Decode(p, packet[1], packet[HeaderLen..]).Failure?)
            ==> r == Failure(Decode(p, packet[1], packet[HeaderLen..]).error)
    ensures (&& |packet| >= HeaderLen && packet[0] == Version
             && c.hash(HashLen, packet[HashLen + 2..]) == packet[2..HashLen + 2]
             && Decode(p, packet[1], packet[HeaderLen..]).Success?
             && c.verifySig(Decode(p, packet[1], packet[HeaderLen..]).value.id,
                            packet[HashLen + 2..HeaderLen], packet[HeaderLen..]))
            ==> r == Success(Received(Decode(p, packet[1], packet[HeaderLen..]).value, packet[2..HashLen + 2]))
    ensures r == Failure(InvalidSig) <==>
      && |packet| >= HeaderLen
      && packet[0] == Version
      && c.hash(HashLen, packet[HashLen + 2..]) == packet[2..HashLen + 2]
      && Decode(p, packet[1], packet[HeaderLen..]).Success?
      && !c.verifySig(Decode(p, packet[1], packet[HeaderLen..]).value.id,
                      packet[HashLen + 2..HeaderLen], packet[HeaderLen..])
  {
    if |packet| == 0 then Failure(ShortPacket)
    else if packet[0] != Version then Failure(UnmatchedVersion)
    else if |packet| < HeaderLen then Failure(ShortPacket)
    else
      var pktHash := packet[2..HashLen + 2];
      var pktSig := packet[HashLen + 2..HeaderLen];
      var payload := packet[HeaderLen..];
      if c.hash(HashLen, packet[HashLen + 2..]) != pktHash then Failure(WrongHash)
      else
        match Decode(p, packet[1], payload)
        case Failure(e) => Failure(e)
        case Success(m) =>
          if c.verifySig(m.id, pktSig, payload) then Success(Received(m, pktHash))
          else Failure(InvalidSig)
  }

  // ---------------------------------------------------------------------------
  // Properties of the envelope

  /** Round trip: a well-sized message packed by the holder of the key its `id`
      names is received intact, with the checksum of the packet as its hash. */
  lemma RoundTrip(c: Crypto.Suite, p: Proto, priv: Bytes, m: Message)
    requires Crypto.Sound(c) && ProtoSound(p)
    requires WellSized(m)
    requires m.id == c.pubOf(priv)
    ensures UnPacket(c, p, Pack(c, p, priv, m).data) == Success(Received(m, Pack(c, p, priv, m).hash))
  {
    var payload := Serialize(p, m);
    var pkt := Pack(c, p, priv, m);
    DecodeSerialize(p, m);
    assert pkt.data[HeaderLen..] == payload;
    assert pkt.data[1] == CodeOf(KindOf(m));
    assert c.verifySig(c.pubOf(priv), c.sign(priv, payload), payload);
  }

  /** Tamper detection on the checksum: replacing the 32 checksum bytes of a
      composed packet by any other 32 bytes is reported as a wrong hash. */
  lemma ChecksumTamperDetected(c: Crypto.Suite, p: Proto, priv: Bytes, code: byte, payload: Bytes, forged: Bytes)
    requires Crypto.Sound(c)
    requires |forged| == HashLen
    requires forged != Compose(c, priv, code, payload).hash
    ensures
      var d := Compose(c, priv, code, payload).data;
      UnPacket(c, p, d[..2] + forged + d[HashLen + 2..]) == Failure(WrongHash)
  {
    var d := Compose(c, priv, code, payload).data;
    var t := d[..2] + forged + d[HashLen + 2..];
    assert t[0] == Version;
    assert t[2..HashLen + 2] == forged;
    assert t[HashLen + 2..] == d[HashLen + 2..];
  }

  /** The written receive path accepts nothing: the re-computed 23-byte digest
      can never equal the 32-byte checksum slice. */
  lemma AsWrittenAcceptsNothing(c: Crypto.Suite, p: Proto, packet: Bytes)
    requires Crypto.Sound(c)
    ensures !UnPacketAsWritten(c, p, packet).Accepted?
  {
    if |packet| >= HeaderLen && packet[0] == Version {
      assert |c.hash(ReHashLen, packet[HashLen + 2..])| == ReHashLen;
      assert |packet[2..HashLen + 2]| == HashLen;
    }
  }

  /** In particular the written receive path rejects every honestly composed
      packet with a wrong-hash error. */
  lemma AsWrittenRejectsComposed(c: Crypto.Suite, p: Proto, priv: Bytes, m: Message)
    requires Crypto.Sound(c)
    ensures UnPacketAsWritten(c, p, Pack(c, p, priv, m).data) == Rejected(WrongHash)
  {
    var d := Pack(c, p, priv, m).data;
    assert |c.hash(ReHashLen, d[HashLen + 2..])| == ReHashLen;
    assert |d[2..HashLen + 2]| == HashLen;
  }

  /** A one-byte packet carrying the right version makes the written receive
      path slice past the end of the buffer; the intended one rejects it. */
  lemma ShortPacketPanics(c: Crypto.Suite, p: Proto)
    ensures UnPacketAsWritten(c, p, [Version]) == Panic
    ensures UnPacket(c, p, [Version]) == Failure(ShortPacket)
  {
  }

  /** An unknown code makes the written `decode` call a method on a nil message;
      the intended one reports the code. */
  lemma UnknownCodePanics(p: Proto, payload: Bytes)
    ensures DecodeAsWritten(p, 5, payload) == DecodePanic
    ensures Decode(p, 5, payload) == Failure(UnknownCode(5))
  {
  }

  /** A payload the protobuf decoder rejects yields, as written, a zero-valued
      message and no error; the intended `decode` reports it. */
  lemma UnmarshalErrorIgnored(p: Proto, payload: Bytes)
    requires p.unmarshal(PingKind, payload).None?
    ensures DecodeAsWritten(p, PingCode, payload) == Decoded(Ping(Zeros(HashLen)))
    ensures Decode(p, PingCode, payload) == Failure(BadPayload)
  {
  }

  // ---------------------------------------------------------------------------
  // Reactions to received messages

  /** A reply sent back to the origin of the received packet. */
  datatype Outgoing = Outgoing(code: byte, msg: Message)

  /** What one `Handle` call does: an optional reply, an optional table insert,
      and an optional hand-off to the pending-request correlator. */
  datatype Reaction = Reaction(reply: Option<Outgoing>, insert: Option<Node>, deliver: Option<Message>)

  /** The node-table lookup `tab.closest(target, k)`. */
  type Closest = (Bytes, nat) -> seq<Node>

  /** The only fact assumed of the table: it returns at most `k` nodes. */
  ghost predicate TableSound(closest: Closest) {
    forall t, k :: |closest(t, k)| <= k
  }

  /** Go's `uint16(origin.Port)`: the port wraps modulo 2^16. */
  function Port16(port: int): (r: nat)
    ensures r < 0x1_0000
    ensures 0 <= port < 0x1_0000 ==> r == port
  {
    port % 0x1_0000
  }

  /** The `FindNode` reply: a `Neighbors` message only when the lookup found something. */
  function NeighborsReply(self: Bytes, nodes: seq<Node>): (r: Option<Outgoing>)
    ensures r.Some? <==> |nodes| > 0
    ensures r.Some? ==> r.value == Outgoing(NeighborsCode, Neighbors(self, nodes))
  {
    if |nodes| > 0 then Some(Outgoing(NeighborsCode, Neighbors(self, nodes))) else None
  }

  /** `Handle` as intended: `Ping` is answered with a `Pong` echoing the packet
      hash and its sender is inserted into the table; `FindNode` is answered
      with the nodes closest to the requested target; `Pong` and `Neighbors` go
      to the correlator. */
  function Handle(self: Bytes, closest: Closest, m: Message, originIp: Bytes, originPort: int, hash: Bytes): (r: Reaction)
    ensures m.Ping? ==>
      && r.reply == Some(Outgoing(PongCode, Pong(self, hash)))
      && r.insert.Some? && r.insert.value.id == m.id && r.insert.value.ip == originIp
      && r.insert.value.port == Port16(originPort)
      && r.deliver.None?
    ensures m.FindNode? ==>
      && r.insert.None? && r.deliver.None?
      && (r.reply.Some? <==> |closest(m.target, MaxNeighborsNodes)| > 0)
      && (r.reply.Some? ==> r.reply.value == Outgoing(NeighborsCode, Neighbors(self, closest(m.target, MaxNeighborsNodes))))
      && (TableSound(closest) && r.reply.Some? ==> |r.reply.value.msg.nodes| <= MaxNeighborsNodes)
    ensures (m.Pong? || m.Neighbors?) ==> r == Reaction(None, None, Some(m))
  {
    match m
    case Ping(id) =>
      Reaction(Some(Outgoing(PongCode, Pong(self, hash))), Some(Node(id, originIp, Port16(originPort))), None)
    case Pong(_, _) => Reaction(None, None, Some(m))
    case FindNode(_, target) => Reaction(NeighborsReply(self, closest(target, MaxNeighborsNodes)), None, None)
    case Neighbors(_, _) => Reaction(None, None, Some(m))
  }

  /** `Handle` as written: identical except that `FindNode` looks up the nodes
      closest to the sender's own `ID` instead of the requested `Target`. */
  function HandleAsWritten(self: Bytes, closest: Closest, m: Message, originIp: Bytes, originPort: int, hash: Bytes): (r: Reaction)
    ensures m.FindNode? ==> r.reply == NeighborsReply(self, closest(m.id, MaxNeighborsNodes))
    ensures !m.FindNode? ==> r == Handle(self, closest, m, originIp, originPort, hash)
  {
    if m.FindNode? then Reaction(NeighborsReply(self, closest(m.id, MaxNeighborsNodes)), None, None)
    else Handle(self, closest, m, originIp, originPort, hash)
  }

  /** A table holding one node that is close to every ID except the all-zero one. */
  function OneNodeTable(n: Node): Closest {
    (t: Bytes, k: nat) => if t == Zeros(HashLen) || k == 0 then [] else [n]
  }

  /** A sender whose own ID is all zeros asks for a target the table does know:
      as written no `Neighbors` reply is sent, as intended one is. */
  lemma FindNodeLooksUpSender(self: Bytes, n: Node, ip: Bytes, port: int, hash: Bytes)
    ensures TableSound(OneNodeTable(n))
    ensures
      var m := FindNode(Zeros(HashLen), [1] + Zeros(HashLen - 1));
      && HandleAsWritten(self, OneNodeTable(n), m, ip, port, hash).reply.None?
      && Handle(self, OneNodeTable(n), m, ip, port, hash).reply == Some(Outgoing(NeighborsCode, Neighbors(self, [n])))
  {
    var target: Bytes := [1] + Zeros(HashLen - 1);
    assert target[0] != Zeros(HashLen)[0];
  }

  /** Ping/Pong correlation end to end: when a node packs a `Ping` and the peer
      receives and handles it, the `Pong` it sends back carries exactly the hash
      `Pack` returned to the pinging node. */
  lemma PingPongCorrelation(c: Crypto.Suite, p: Proto, priv: Bytes, self: Bytes, closest: Closest, ip: Bytes, port: int)
    requires Crypto.Sound(c) && ProtoSound(p)
    ensures
      var ping := Ping(c.pubOf(priv));
      var pkt := Pack(c, p, priv, ping);
      var rcv := UnPacket(c, p, pkt.data);
      && rcv.Success?
      && Handle(self, closest, rcv.value.msg, ip, port, rcv.value.hash).reply
         == Some(Outgoing(PongCode, Pong(self, pkt.hash)))
  {
    RoundTrip(c, p, priv, Ping(c.pubOf(priv)));
  }
}

=== FILE: seqs.dfy ===
/** Generic sequence helpers shared by the event fan-out and the finder. */
module Seqs {

  /** The elements of `s` that satisfy `p`, in their original order. */
  function Filter<T>(s: seq<T>, p: T -> bool): (r: seq<T>)
    ensures |r| <= |s|
  {
    if |s| == 0 then []
    else Filter(s[..|s| - 1], p) + (if p(s[|s| - 1]) then [s[|s| - 1]] else [])
  }

  /** Concatenation is associative; called where the solver would otherwise search for it. */
  lemma AppendAssoc<T>(x: seq<T>, y: seq<T>, z: seq<T>)
    ensures (x + y) + z == x + (y + z)
  {
  }

  /** Membership in a filtered sequence: exactly the elements of `s` that pass `p`. */
  lemma {:induction false} FilterMembers<T>(s: seq<T>, p: T -> bool, x: T)
    ensures x in Filter(s, p) <==> x in s && p(x)
  {
    if |s| > 0 {
      FilterMembers(s[..|s| - 1], p, x);
      assert s == s[..|s| - 1] + [s[|s| - 1]];
    }
  }
}

=== FILE: wrappers.dfy ===
/** Failure-compatible wrappers used by every module of the model:
    `Option` stands for Go's "value, ok" pairs and nil results,
    `Result` for Go's "value, err" pairs. */
module Wrappers {

  datatype Option<+T> = None | Some(value: T) {

    predicate IsFailure() {
      None?
    }

    function PropagateFailure<U>(): Option<U>
      requires None?
    {
      None
    }

    function Extract(): T
      requires Some?
    {
      value
    }
  }

  datatype Result<+R, +E> = Success(value: R) | Failure(error: E) {

    predicate IsFailure() {
      Failure?
    }

    function PropagateFailure<U>(): Result<U, E>
      requires Failure?
    {
      Failure(error)
    }

    function Extract(): R
      requires Success?
    {
      value
    }
  }
}
